=== FILE: README.md ===
# sched-analyzer core, modelled in Dafny

sched-analyzer collects scheduler data with BPF. It then turns the collected
trace into plots and tables with a set of Python post-processing scripts
(`sched-analyzer-pp`). This project models the parts of both sides that are
pure, sequential logic, and proves properties of them.

- **Kernel symbol table** (`parse_kallsyms.c`), modules `CLib` and `Kallsyms`.
  `parse_kallsyms` reads `/proc/kallsyms` into a static array of 500000
  `{address, name}` slots. It does not run when `kptr_restrict` hides
  addresses. `find_kallsyms` maps an address to a symbol name: it bisects
  while the range is wider than 100 slots, then scans for two neighbouring
  slots whose addresses bracket the address.
  - File contents are inputs.
  - `fgets`, `strtok(…, " ")`, `strtoul` and `strtol` are modelled over
    character sequences, as glibc behaves.
- **Output-mode options** (`parse_argp.c`), module `ParseArgp`: the
  `struct sa_opts` record, its defaults, and the argp callback `parse_arg`.
- **Post-processing** (`sched-analyzer-pp/*.py`). Pandas frames are sequences
  of rows, and the scripts' module globals are explicit state values.
  - `Settings`: the time window and `filter_ts`.
  - `Utils`: `convert_ts`, which resamples onto a 100 µs grid with forward
    fill, rebases to seconds and clips to the window.
  - `Freq`: CPU cluster detection, its memoisation, and the plot-loop
    row/colour bookkeeping.
  - `Idle`: the exit-from-idle sentinel, the 4-column subplot grid, and
    idle-state residency.
  - `CpuResidency`: the top-10 thread selection and per-CPU run shares.
  - `Sums`: the exact-arithmetic group sums and percentage shares the last
    two modules share.

Percentages and seconds are `real`s, so the arithmetic is exact.

## Model

| member | source | states |
|---|---|---|
| Kallsyms.InitialTable | parse_kallsyms.c:18-19 | Before parsing, the static table has MAX_NUM_SYMBOLS slots, each holding address 0 and an empty name, and is not ready. |
| Kallsyms.NameFieldAsWritten | parse_kallsyms.c:94-95 | As written, the 128-byte name field ends in the character '0', not in NUL. |
| Kallsyms.LongNameIsUnterminated | parse_kallsyms.c:94-95 | A name token of 127 characters or more leaves no NUL anywhere in the field. |
| Kallsyms.LongNameCounterexample | parse_kallsyms.c:94-95 | A concrete 127-character name leaves the field unterminated. |
| Kallsyms.NameField | parse_kallsyms.c:94-95 | The corrected field is exactly SYMBOL_LEN bytes, and its last byte is NUL. |
| Kallsyms.StoredName | parse_kallsyms.c:94-95 | The stored name is the name token cut to SYMBOL_LEN-1 = 127 characters. |
| Kallsyms.ShortNamesAgree | parse_kallsyms.c:94-95 | For names under 127 characters, the code as written stores the same C string as the corrected code. |
| Kallsyms.ParseLine | parse_kallsyms.c:63-95 | A line gives an entry exactly when it has at least three space-separated tokens and `strtoul(…, 16)` converts the first one. The entry's address is the converted value, and its name is the third token cut to 127 characters. A failing line records no address when it has no token. Otherwise it records the address `strtoul` wrote: 0 with no digits, ULONG_MAX on a range error, the value when a later token is missing. |
| Kallsyms.TokensHaveNoNul | parse_kallsyms.c:63-88 | Tokens of a C string contain no NUL, so a name token can be copied as a C string. |
| Kallsyms.ParseFormattedLine | parse_kallsyms.c:63-96 | A line in the kernel's "address type name" format parses back to its address. Its name is the third token, which keeps the newline. |
| Kallsyms.StoreEntries | parse_kallsyms.c:58-97 | At most MAX_NUM_SYMBOLS entries are stored, and never more than there are lines. Slots 0..count-1 hold the parsed lines in order. The loop stops at the first failing line, at MAX_NUM_SYMBOLS, or at end of file. Later slots are untouched. A failing line's slot keeps the address `strtoul` already wrote. |
| Kallsyms.ParseKallsyms | parse_kallsyms.c:30-104 | If `kptr_restrict` is 2 or more, or kallsyms cannot be opened, the table is unchanged. Otherwise the table is ready, and `StoreEntries`' guarantees hold over the lines `fgets` returns, including the address a failing line leaves in its slot. |
| Kallsyms.KptrRestricted | parse_kallsyms.c:36-46 | The first `fgets` buffer of kptr_restrict, read by `strtol(…, 0)` and stored in an `int`, decides the gate. A value within the `int` range restricts exactly when it is at least 2. No digits, or a saturated out-of-range value, do not restrict. A file that cannot be opened or is empty does not restrict either. |
| Kallsyms.SaturatedInt32 | parse_kallsyms.c:40 | Storing a saturated `strtol` result in an `int` keeps its low 32 bits: LONG_MAX becomes -1 and LONG_MIN becomes 0. |
| Kallsyms.KptrGateExamples | parse_kallsyms.c:36-50 | A `kptr_restrict` file reading "2" stops the parse; one reading "1" does not, and neither does a file that cannot be opened. |
| Kallsyms.CmpAsWritten | parse_kallsyms.c:22-28 | The comparator's result is the address difference reduced modulo 2^32 into the `int` range. |
| Kallsyms.CmpAsWrittenMisorders | parse_kallsyms.c:22-28 | The comparator ranks address 0 above 0xffffffff81000000, and 0xffffffff81000000 below 0x1000. |
| Kallsyms.Cmp | parse_kallsyms.c:22-28 | The corrected comparator's sign is the order of the two addresses. |
| Kallsyms.SortedMeansCmpOrdered | parse_kallsyms.c:101 | A table is sorted exactly when no pair of slots is out of order under the corrected comparator. |
| Kallsyms.BracketExists | parse_kallsyms.c:106-113 | If the ends of a range bracket an address, some neighbouring pair inside the range does too. |
| Kallsyms.Scan | parse_kallsyms.c:106-118 | The result is the first k in [start, end-1] with addr[k] <= a <= addr[k+1]. It is NULL exactly when no such k exists. Every index read is below MAX_NUM_SYMBOLS. |
| Kallsyms.Bisect | parse_kallsyms.c:120-138 | Each answer lies in [start, end) and is either an exact match or a bracketing slot. On a range wider than 100, an address equal to the pivot's returns the pivot. An address bracketed by the range's ends is always found. On a sorted table every answer brackets. Recursion shrinks end-start. |
| Kallsyms.FindKallsyms | parse_kallsyms.c:140-146 | NULL for address 0 or a table that is not ready. Any address between the first and last slots' addresses is found. On a sorted table, an address is found exactly when it is in that range, and the name comes from a bracketing slot. |
| CLib.FgetsLen | parse_kallsyms.c:38 | One `fgets` read takes up to and including the first newline, at most size-1 characters. |
| CLib.FgetsLines | parse_kallsyms.c:58 | Every buffer the read loop gets holds 1 to LINE_SIZE-1 characters, a newline only as its last character, and each buffer but the last is one whole line or a full LINE_SIZE-1 piece of one. The first buffer is the first `fgets` read. |
| CLib.FgetsLinesRoundTrip | parse_kallsyms.c:58 | Concatenating the buffers gives back the whole file. |
| CLib.Tokens | parse_kallsyms.c:63-88 | Each `strtok(…, " ")` token is non-empty and contains no space. |
| CLib.TokenGaps | parse_kallsyms.c:63-88 | The line is its tokens laid out with runs of spaces before, between and after them, and every run between two tokens holds at least one space. |
| CLib.TokensSplitAtSpaceRuns | parse_kallsyms.c:63-88 | Tokens split exactly at runs of spaces: since no token holds a space, each token is a maximal run of non-space characters. |
| CLib.TokensKeepAllButSpaces | parse_kallsyms.c:63-88 | Tokenising keeps every non-space character, in order, and nothing else, and it splits exactly at the runs of spaces. |
| CLib.Strtoul | parse_kallsyms.c:70-78 | The result is "no conversion" exactly when no digits are found. A range error happens exactly when the magnitude read exceeds ULONG_MAX, and yields ULONG_MAX. A converted value is an `unsigned long` congruent modulo 2^64 to the signed number read. |
| CLib.Strtol | parse_kallsyms.c:40 | The result is "no conversion" exactly when no digits are found. The number read is returned exactly when it lies in the `long` range; otherwise the result is a range error with LONG_MIN or LONG_MAX by sign. |
| CLib.StrtoulOfDigits | parse_kallsyms.c:70 | A base-10 or base-16 digit run ended by a non-digit converts to the number the digits denote, or is a range error above ULONG_MAX. |
| CLib.ToInt32 | parse_kallsyms.c:40 | Storing a `long` in an `int` gives a value in [-2^31, 2^31) congruent modulo 2^32, and leaves values already in range unchanged. |
| CLib.PaddedHexValue | parse_kallsyms.c:70 | The digits of a zero-padded hexadecimal rendering denote the rendered number. |
| CLib.ScanPaddedHex | parse_kallsyms.c:70 | A base-16 scan of a padded address followed by a space reads that address back. |
| ParseArgp.ParseArg | parse_argp.c:22-42 | 'p' and 'c' each set their mode, clear the other, and return 0. A positional argument is a usage exit. ARGP_KEY_END leaves the options alone and returns 0. Any other key leaves them alone and returns ARGP_ERR_UNKNOWN. No field other than the two mode flags ever changes. |
| ParseArgp.DefaultIsPerfetto | parse_argp.c:11-14 | The initial options name exactly one mode, Perfetto. |
| ParseArgp.LastModeWins | parse_argp.c:24-42 | After any key sequence without a usage error, the mode is the one named by the last mode key, or the starting mode if there is none. Nothing else changes. |
| ParseArgp.ExactlyOneMode | parse_argp.c:11-32 | Starting from the defaults, exactly one of perfetto/csv is set after any accepted key sequence. |
| ParseArgp.PositionalIsUsageError | parse_argp.c:33-35 | A positional argument anywhere on the command line ends in a usage exit. |
| Settings.Init | sched-analyzer-pp/settings.py:8-13 | The initial window admits exactly the indices in [0, 2^64-1]. |
| Settings.SetTsStart | sched-analyzer-pp/settings.py:15-18 | After setting the start, the window admits [ts, old end], and the end is unchanged. |
| Settings.SetTsEnd | sched-analyzer-pp/settings.py:20-23 | After setting the end, the window admits [old start, ts], and the start is unchanged. |
| Settings.FilterTs | sched-analyzer-pp/settings.py:25-29 | Every kept row's index lies in [ts_start, ts_end], and the result is no longer than the input. |
| Settings.FilterMembership | sched-analyzer-pp/settings.py:29 | A row is kept exactly when it is in the input and its index lies in the closed window. |
| Settings.KeptFrom | sched-analyzer-pp/settings.py:29 | The reference selection is the increasing list of exactly the input positions whose index is in the window. |
| Settings.FilterIsSelection | sched-analyzer-pp/settings.py:29 | The filtered frame is the input's rows at those positions, in the original order: a subsequence. |
| Settings.FilterIdempotent | sched-analyzer-pp/settings.py:29 | Filtering twice equals filtering once. |
| Settings.EmptyWindow | sched-analyzer-pp/settings.py:29 | If ts_start > ts_end, the result is empty. |
| Settings.FilterKeepsAscending | sched-analyzer-pp/settings.py:29 | Filtering keeps a strictly ascending index strictly ascending. |
| Settings.RaisingStartNarrows | sched-analyzer-pp/settings.py:15-29 | After raising ts_start, the result is the old result filtered again: a subsequence of it with no row the old one lacks. |
| Settings.NarrowerRefilters | sched-analyzer-pp/settings.py:29 | Filtering with a window inside another equals filtering with the outer window first. |
| Utils.Grid | sched-analyzer-pp/utils.py:35 | The k-th grid point is trace_start + k·100000 and lies below trace_end. The grid includes every such point, so there are ⌈(end-start)/100000⌉ of them. |
| Utils.LatestAtOrBefore | sched-analyzer-pp/utils.py:36 | The forward-fill reference is "no value" exactly when every row is later. Otherwise it is the value of a row at or before the point that has no later such row. |
| Utils.Resample | sched-analyzer-pp/utils.py:31-37 | There is one row per grid point, stamped with the point and carrying the forward-filled value. |
| Utils.LatestIsBeforeSplit | sched-analyzer-pp/utils.py:36 | In an ascending frame, forward fill takes the row just before the first row that is later than the point. |
| Utils.ReindexFfill | sched-analyzer-pp/utils.py:36 | One forward pass over grid and rows yields the forward-fill reference at every grid point. |
| Utils.ToSeconds | sched-analyzer-pp/utils.py:40-41 | Seconds times 1e9 equals the nanoseconds since trace start. |
| Utils.ToSecondsOrder | sched-analyzer-pp/utils.py:40-41 | A row at trace start maps to 0, and rebasing preserves order in both directions. |
| Utils.Rebase | sched-analyzer-pp/utils.py:40-43 | Each row is re-indexed by its rebased time and keeps its values. |
| Utils.ConvertTs | sched-analyzer-pp/utils.py:19-48 | An empty frame gives an empty result. Resampling fails exactly on a non-empty frame whose timestamps are not strictly ascending. Every output index lies in the window. |
| Utils.ConvertReindexed | sched-analyzer-pp/utils.py:31-46 | With reindex, the output holds exactly the in-window grid points, each at its offset in seconds and carrying the forward-filled value. |
| Utils.ConvertPlain | sched-analyzer-pp/utils.py:39-46 | Without reindex, the output holds exactly the input rows whose rebased time is in the window. The j-th output row is the input row at the j-th position the window keeps, so rows keep their order and multiplicity. |
| Utils.ConvertReindexedAscending | sched-analyzer-pp/utils.py:31-46 | The resampled output is strictly ascending in time. |
| Freq.ExtendLast | sched-analyzer-pp/freq.py:26-27 | A CPU whose series equals the current head's joins the current cluster. |
| Freq.AppendHead | sched-analyzer-pp/freq.py:29-30 | A CPU whose series differs from the current head's becomes a new head. |
| Freq.AppendCovers | sched-analyzer-pp/freq.py:29-30 | A newly appended head covers itself. |
| Freq.FindClusters | sched-analyzer-pp/freq.py:19-30 | `clusters[0]` is CPU 0, and the list is strictly increasing below nr_cpus. Consecutive heads have different series. Every CPU has the series of the nearest head at or below it. |
| Freq.FindClustersOnce | sched-analyzer-pp/freq.py:13-17 | A no-op once clusters are known; otherwise it computes them. Afterwards they are always known. |
| Freq.ScaleFreq | sched-analyzer-pp/freq.py:40 | Each frequency times 10^6 gives back the original, and the other columns are unchanged. |
| Freq.Load | sched-analyzer-pp/freq.py:32-42 | Empty data leaves the clusters unset. Otherwise the frequencies are scaled down by 10^6 and the clusters describe that frame. An already loaded frame is kept. |
| Freq.Init | sched-analyzer-pp/freq.py:44-55 | After a reset, empty data leaves the clusters None. Otherwise they describe the scaled frame. |
| Freq.PlotSlots | sched-analyzer-pp/freq.py:62-90 | The m-th plotted cluster gets subplot row m+1 and colour index m mod 3, which is always below 3. Exactly the plotted clusters get slots, in order. |
| Idle.ReplaceSentinel | sched-analyzer-pp/idle.py:25-27 | 4294967295 becomes -1, and every other value is unchanged. |
| Idle.ReplaceIdempotent | sched-analyzer-pp/idle.py:27 | Replacing twice equals replacing once. |
| Idle.Sample | sched-analyzer-pp/idle.py:20-27 | A loaded sample keeps its CPU, sits at its nanoseconds since the first sample divided by 10^9, and holds its state with the sentinel replaced, so never the sentinel. |
| Idle.Prepare | sched-analyzer-pp/idle.py:20-27 | Each row is re-indexed by seconds since the first sample and has its sentinel replaced. |
| Idle.Load | sched-analyzer-pp/idle.py:13-39 | Every loaded row is inside the window and free of the sentinel. |
| Idle.LoadContents | sched-analyzer-pp/idle.py:13-29 | The first sample sits at time 0. The loaded frame holds exactly the in-window samples, in query order and each once: row j is the sample at the j-th in-window position. |
| Idle.NumRows | sched-analyzer-pp/idle.py:41-43 | `int((n+3)/4)` equals ⌈n/4⌉: the fewest 4-wide rows that hold n CPUs. |
| Idle.SubplotIndices | sched-analyzer-pp/idle.py:62-85 | The k-th CPU goes to subplot k+1, which never exceeds 4·num_rows. |
| Idle.CpuRows | sched-analyzer-pp/idle.py:65 | The per-CPU selection holds only that CPU's rows. |
| Idle.CpuPositions | sched-analyzer-pp/idle.py:65 | The reference selection is the increasing list of exactly the frame positions whose row belongs to the CPU. |
| Idle.CpuRowsIsSelection | sched-analyzer-pp/idle.py:65 | The per-CPU selection is the frame's rows at those positions, in frame order: every row of the CPU, each once. |
| Idle.Intervals | sched-analyzer-pp/idle.py:66 | Each sample lasts until the next one. The last sample's NaN duration counts as 0. |
| Idle.TotalTelescopes | sched-analyzer-pp/idle.py:66-68 | A CPU's total duration is its last timestamp minus its first. |
| Idle.Divisor | sched-analyzer-pp/idle.py:69-70 | The divisor is never 0, and it is the total whenever the total is non-zero. |
| Idle.Residency | sched-analyzer-pp/idle.py:66-71 | One value per requested state: that state's summed durations times 100, over the CPU's total duration, or over 1 when the total is 0. |
| Idle.StatesOf | sched-analyzer-pp/idle.py:71 | The groups of `groupby('idle')` are duplicate-free and are exactly the states the CPU visited. |
| Idle.ResidencySumsTo100 | sched-analyzer-pp/idle.py:66-71 | For a CPU with elapsed time, the per-state percentages sum to exactly 100. |
| Idle.TuiResidencySumsTo100 | sched-analyzer-pp/idle.py:112-123 | The same holds over the global sorted state list. |
| Sums.HitsOnce | sched-analyzer-pp/idle.py:71 | An item counts toward exactly one group of a duplicate-free key list that holds its key. |
| Sums.GroupSumsPartitionTotal | sched-analyzer-pp/idle.py:71 | Group sums over duplicate-free keys that cover every item add up to the total. |
| Sums.Shares | sched-analyzer-pp/cpu_residency.py:34 | Each key's share is its group sum times 100 over the divisor. |
| Sums.SharesSum | sched-analyzer-pp/cpu_residency.py:34 | The shares sum to the summed group sums times 100 over the divisor. |
| Sums.SharesOfTotalSumTo100 | sched-analyzer-pp/cpu_residency.py:32-34 | Divided by a non-zero total, the shares of a covering key list sum to 100. |
| Sums.KeysOf | sched-analyzer-pp/cpu_residency.py:20 | The group keys are duplicate-free, cover every item, and each occurs in some item. |
| CpuResidency.GroupItems | sched-analyzer-pp/cpu_residency.py:19-21 | Each slice's duration is filed under its (tid, thread_name) group. |
| CpuResidency.ArgMax | sched-analyzer-pp/cpu_residency.py:22 | The picked group's sum is at least every other candidate's. |
| CpuResidency.TopN | sched-analyzer-pp/cpu_residency.py:17-24 | Selects min(10, number of groups) distinct groups, ordered by descending sum. No unselected group has a larger sum than any selected one (`IsTopN`). |
| CpuResidency.TidShares | sched-analyzer-pp/cpu_residency.py:29-34 | One row per (tid, thread_name, cpu) group of the tid. A share is a number exactly when the tid's total is non-zero, and then it is the group's duration sum times 100 over the tid's total. |
| CpuResidency.PercentagesOfShares | sched-analyzer-pp/cpu_residency.py:34 | The numeric shares are the computed percentages, in order. |
| CpuResidency.TidSharesSumTo100 | sched-analyzer-pp/cpu_residency.py:29-34 | For a tid with non-zero total, its per-CPU shares sum to exactly 100. |
| CpuResidency.TopPercent | sched-analyzer-pp/cpu_residency.py:29-37 | Every row belongs to a selected tid, and a selected tid that ran contributes rows. |
| CpuResidency.TopPercentConcat | sched-analyzer-pp/cpu_residency.py:29-37 | Selecting groups `a` then `b` gives `a`'s rows followed by `b`'s: the frame is built by appending. |
| CpuResidency.TopPercentSingle | sched-analyzer-pp/cpu_residency.py:30-37 | One selected group contributes exactly its tid's share rows. With the previous row, the frame is the tid shares of every selected group, end to end and in order. |
| CpuResidency.TidsHaveShares | sched-analyzer-pp/cpu_residency.py:30-34 | A tid that occurs in the slices has at least one share row. |
| CpuResidency.Init | sched-analyzer-pp/cpu_residency.py:39-61 | Without a non-empty process name, nothing changes. With one, the first name is recorded, and an empty query result changes nothing else. Otherwise the table is the shares of a selection meeting every guarantee of `TopN`: distinct groups, descending by sum, none left out larger than one selected. |
| CpuResidency.Summary | sched-analyzer-pp/cpu_residency.py:63-67 | Nothing is plotted when the table is empty. Otherwise one tid is plotted per table row. An undefined table is a NameError. |
| CpuResidency.SummaryPlotsSelected | sched-analyzer-pp/cpu_residency.py:63-67 | Every plotted tid belongs to a selected group. |
| CpuResidency.SaveCsv | sched-analyzer-pp/cpu_residency.py:78-81 | Nothing is written when the table is empty. Otherwise the table goes to `prefix + "_run_residency_" + name + ".csv"`. |

Behaviour worth knowing that the model makes explicit:

- `find_kallsyms` returns the name of the lower slot of the first bracketing
  pair. So an address equal to the next slot's address returns the previous
  symbol's name (`Kallsyms.Scan`).
- `strtok` splits at spaces only. A stored name therefore keeps the line's
  newline, and for module symbols the tab and module name too
  (`Kallsyms.ParseFormattedLine`).
- A line that fails to parse still overwrites its slot's address
  (`Kallsyms.StoreEntries`).
- A tid selected under two thread names has its shares appended twice
  (`CpuResidency.TopPercent` works per selected group).
- `cpu_residency.init` records the first name even when only a later name
  is non-empty.

## Left out

- File and terminal I/O: `fopen`/`fclose`, the `stderr` messages and
  `perror`, plotting, TUI output, `print`, CSV writing and figure sizes.
  - File contents and query results are parameters.
  - The trace bounds of `utils.init` are parameters of `Utils.ConvertTs`.
- The static `symbols` array is a sequence of exactly MAX_NUM_SYMBOLS
  slots, each holding the name as a character sequence rather than a
  128-byte field. The raw field is modelled separately (`Kallsyms.NameField`).
- The closing `qsort` at parse_kallsyms.c:101 is not modelled. The lookup's
  sortedness is a precondition where it is needed (`Kallsyms.Sorted`).
  - With the comparator as written, the sort's order is not defined (see
    Findings).
  - The sort covers all 500000 slots, filled or not.
- Kallsyms.Bisect: requires that a range wider than 100 has its pivot
  strictly inside. The only call, (0, 250000, 499999), and every recursive
  call satisfy this.
- The "unexpected path" at parse_kallsyms.c:135-137 is not modelled: on
  integers one of =, > and < always holds, so it cannot be reached.
- Kallsyms.FindKallsyms: the name is the slot's C string, not the raw
  128-byte field, so the as-written missing terminator does not show up in
  lookups.
- Utils.ConvertTs: only `method='ffill'` is modelled, the default and the
  only value used. Pandas also accepts a strictly descending index, which
  the model reports as an error like any other non-ascending one.
- Utils.ConvertTs: the `_ts` column is not carried, since it equals the
  index. Working on a copy needs no modelling, because values are immutable.
- Floating point: seconds, scaled frequencies and percentages are exact `real`s. No claim
  is made about IEEE rounding. `round(2)` on integer duration sums is the
  identity.
- CpuResidency.TopN: the source's descending sort is not stable, so equal
  sums may come in any order. The model takes the earlier group first.
- CpuResidency.TidShares: NaN and infinite shares (total 0) are kept as
  "no number" and are not distinguished.
- CpuResidency.TidShares: rows come in the order their groups first appear
  among the tid's slices. Pandas `groupby` sorts its keys, so the program's
  rows, CSV and summary follow sorted (tid, thread_name, cpu) order. Sorting
  is not modelled, because it needs an order on thread-name strings.
- Idle.StatesOf: the states come in the order they first appear in the
  CPU's samples. Pandas `groupby('idle')` sorts them, so the program draws
  the pie slices in ascending state order. The percentages per state are
  the same either way.
- CpuResidency.GroupItems: a NULL `thread_name` is not modelled, because
  names are plain strings. In the program, `groupby` drops such slices from
  the groups while the tid's total still counts them. The shares then sum
  below 100, which `CpuResidency.TidSharesSumTo100` does not cover.
- The `ts` rebasing in `cpu_residency.init` is left out, because no later
  step reads `ts`. The `pd.set_option` calls are display settings.
- `freq.py`:
  - `save_csv`, `plot_tui` and the per-task plots are left out.
  - `df_states` is left out (`utils.get_df_states` is not part of this
    model).
  - The plot functions read `len(clusters)` before their empty-frame check.
    With no frequency data, `clusters` is None at that point. This is
    plotting code and is not modelled.
- The `struct sa_opts` fields other than the two mode flags keep their
  defaults: `parse_arg` never sets them.
- `argp_usage` prints and exits. It is the `UsageExit` outcome.
- Kernel and BPF plumbing, the Perfetto wrapper, the trace-processor
  lookup, and the remaining scripts (`pelt.py`, `sa_track.py`, `sched.py`)
  are not part of this model.

## Findings

| source | as written | input that shows it | evidently intended | confidence | as-written member | corrected member |
|---|---|---|---|---|---|---|
| parse_kallsyms.c:95 | The last byte of the 128-byte name field is set to the character '0'. | A kallsyms line whose name token is 127 characters or longer: the field then holds no NUL. | Set the last byte to NUL, so the stored name is the token cut to 127 characters. | not executed; high | Kallsyms.LongNameIsUnterminated | Kallsyms.StoredName |
| parse_kallsyms.c:27 | The comparator returns the 64-bit address difference as an `int`, reduced modulo 2^32. | An unfilled slot (address 0) against 0xffffffff81000000 compares as greater. | Return the sign of the difference. | not executed; medium | Kallsyms.CmpAsWrittenMisorders | Kallsyms.Cmp |

=== FILE: clib.dfy ===
/** The pieces of the C library the kernel-symbol parser leans on, stated over
    character sequences: C strings, `fgets` line reads, `strtok` with a single
    delimiter, and `strtoul`/`strtol` integer conversion as glibc performs it. */
module CLib {
  import opened Wrappers

  const NUL: char := 0 as char
  const LONG_MAX: int := 0x7FFF_FFFF_FFFF_FFFF
  const LONG_MIN: int := -0x8000_0000_0000_0000

  /** The C string held by a character buffer: everything before its first NUL. */
  function CStr(s: seq<char>): (r: seq<char>)
    ensures NUL !in r
    ensures r <= s
    ensures |r| < |s| ==> s[|r|] == NUL
  {
    if s == [] || s[0] == NUL then [] else [s[0]] + CStr(s[1..])
  }

  function Concat(parts: seq<seq<char>>): seq<char>
  {
    if parts == [] then [] else parts[0] + Concat(parts[1..])
  }

  // ---------------------------------------------------------------------------
  // fgets

  /** How many characters one `fgets(buf, size, fp)` takes from the unread
      input `s`: up to and including the first newline, at most `size - 1`
      characters, and no more than remain. */
  function FgetsLen(s: seq<char>, size: nat): (k: nat)
    requires size >= 2 && s != []
    ensures 1 <= k <= |s| && k <= size - 1
    ensures forall i :: 0 <= i < k - 1 ==> s[i] != '\n'
    ensures s[k - 1] == '\n' || k == size - 1 || k == |s|
  {
    if |s| == 1 || s[0] == '\n' || size == 2 then 1 else 1 + FgetsLen(s[1..], size - 1)
  }

  /** The successive buffers `while (fgets(buf, size, fp))` reads from a file:
      a newline occurs only as a buffer's last character, and every buffer
      but the last ends at a newline or is full. */
  function FgetsLines(s: seq<char>, size: nat): (lines: seq<seq<char>>)
    requires size >= 2
    decreases |s|
    ensures forall i :: 0 <= i < |lines| ==> 1 <= |lines[i]| <= size - 1
    ensures forall i, j :: 0 <= i < |lines| && 0 <= j < |lines[i]| - 1 ==> lines[i][j] != '\n'
    ensures forall i :: 0 <= i < |lines| - 1 ==> lines[i][|lines[i]| - 1] == '\n' || |lines[i]| == size - 1
    ensures s != [] ==> lines != [] && lines[0] == s[..FgetsLen(s, size)]
  {
    if s == [] then [] else
    var k := FgetsLen(s, size);
    [s[..k]] + FgetsLines(s[k..], size)
  }

  /** Reading a file with repeated `fgets` loses and invents nothing. */
  lemma {:induction false} FgetsLinesRoundTrip(s: seq<char>, size: nat)
    requires size >= 2
    ensures Concat(FgetsLines(s, size)) == s
    decreases |s|
  {
    if s != [] {
      var k := FgetsLen(s, size);
      FgetsLinesRoundTrip(s[k..], size);
      assert s[..k] + s[k..] == s;
    }
  }

  // ---------------------------------------------------------------------------
  // strtok with the single delimiter ' '

  function TokenLen(s: seq<char>): (n: nat)
    ensures n <= |s|
    ensures s != [] && s[0] != ' ' ==> n >= 1
    ensures forall i :: 0 <= i < n ==> s[i] != ' '
    ensures n < |s| ==> s[n] == ' '
  {
    if s == [] || s[0] == ' ' then 0 else 1 + TokenLen(s[1..])
  }

  /** The tokens successive `strtok(…, " ")` calls return: maximal runs of
      characters other than the space. Tabs and newlines stay inside tokens. */
  function Tokens(s: seq<char>): (ts: seq<seq<char>>)
    ensures forall i :: 0 <= i < |ts| ==> ts[i] != [] && ' ' !in ts[i]
  {
    if s == [] then []
    else if s[0] == ' ' then Tokens(s[1..])
    else
      var n := TokenLen(s);
      var token := s[..n];
      assert ' ' !in token by {
        forall i | 0 <= i < |token| ensures token[i] != ' ' {
          assert token[i] == s[i];
        }
      }
      var ts := Tokens(s[n..]);
      assert forall i :: 0 < i < |[token] + ts| ==> ([token] + ts)[i] == ts[i - 1];
      [token] + ts
  }

  function RemoveSpaces(s: seq<char>): (r: seq<char>)
    ensures ' ' !in r
  {
    if s == [] then [] else (if s[0] == ' ' then [] else [s[0]]) + RemoveSpaces(s[1..])
  }

  lemma {:induction false} RemoveSpacesAppend(a: seq<char>, b: seq<char>)
    ensures RemoveSpaces(a + b) == RemoveSpaces(a) + RemoveSpaces(b)
  {
    if a == [] {
      assert a + b == b;
    } else {
      assert (a + b)[0] == a[0] && (a + b)[1..] == a[1..] + b;
      RemoveSpacesAppend(a[1..], b);
      var h := if a[0] == ' ' then [] else [a[0]];
      assert RemoveSpaces(a + b) == h + (RemoveSpaces(a[1..]) + RemoveSpaces(b));
      AppendAssoc(h, RemoveSpaces(a[1..]), RemoveSpaces(b));
    }
  }

  lemma {:induction false} RemoveSpacesOfSpaces(s: seq<char>)
    requires forall i :: 0 <= i < |s| ==> s[i] == ' '
    ensures RemoveSpaces(s) == []
  {
    if s != [] {
      RemoveSpacesOfSpaces(s[1..]);
    }
  }

  lemma {:induction false} RemoveSpacesOfToken(s: seq<char>)
    requires ' ' !in s
    ensures RemoveSpaces(s) == s
  {
    if s != [] {
      RemoveSpacesOfToken(s[1..]);
    }
  }

  function SpaceRun(n: nat): (r: seq<char>)
    ensures |r| == n && forall i :: 0 <= i < n ==> r[i] == ' '
  {
    seq(n, _ => ' ')
  }

  /** The tokens `ts` laid out with `gaps[i]` spaces before the i-th token and
      `gaps[|ts|]` spaces after the last. */
  function Weave(gaps: seq<nat>, ts: seq<seq<char>>): seq<char>
    requires |gaps| == |ts| + 1
  {
    if ts == [] then SpaceRun(gaps[0]) else SpaceRun(gaps[0]) + ts[0] + Weave(gaps[1..], ts[1..])
  }

  /** `s` is its tokens separated by runs of spaces, with at least one space
      between neighbours; since no token holds a space, every token is a
      maximal run of non-space characters. */
  ghost predicate SplitAtSpaceRuns(s: seq<char>, ts: seq<seq<char>>)
  {
    exists gaps: seq<nat> ::
      && |gaps| == |ts| + 1
      && (forall i :: 0 < i < |ts| ==> gaps[i] >= 1)
      && s == Weave(gaps, ts)
  }

  lemma TokensSplitAtSpaceRuns(s: seq<char>)
    ensures SplitAtSpaceRuns(s, Tokens(s))
  {
    var gaps := TokenGaps(s);
    Separated(s, Tokens(s), gaps);
  }

  lemma Separated(s: seq<char>, ts: seq<seq<char>>, gaps: seq<nat>)
    requires |gaps| == |ts| + 1 && (forall i :: 0 < i < |ts| ==> gaps[i] >= 1)
    requires s == Weave(gaps, ts)
    ensures SplitAtSpaceRuns(s, ts)
  {
  }

  /** The space-run lengths around the tokens of `s`. */
  lemma {:induction false} TokenGaps(s: seq<char>) returns (gaps: seq<nat>)
    ensures |gaps| == |Tokens(s)| + 1
    ensures forall i :: 0 < i < |Tokens(s)| ==> gaps[i] >= 1
    ensures s == Weave(gaps, Tokens(s))
  {
    if s == [] {
      gaps := [0];
      assert s == Weave(gaps, Tokens(s));
    } else if s[0] == ' ' {
      var g := TokenGaps(s[1..]);
      gaps := GapsAfterSpace(s, g);
    } else {
      var g := TokenGaps(s[TokenLen(s)..]);
      gaps := GapsAfterToken(s, g);
    }
  }

  /** `s` starts with a space: its first run is one longer than that of `s[1..]`. */
  lemma GapsAfterSpace(s: seq<char>, g: seq<nat>) returns (gaps: seq<nat>)
    requires s != [] && s[0] == ' '
    requires |g| == |Tokens(s[1..])| + 1
    requires forall i :: 0 < i < |Tokens(s[1..])| ==> g[i] >= 1
    requires s[1..] == Weave(g, Tokens(s[1..]))
    ensures |gaps| == |Tokens(s)| + 1
    ensures forall i :: 0 < i < |Tokens(s)| ==> gaps[i] >= 1
    ensures s == Weave(gaps, Tokens(s))
  {
    var ts := Tokens(s);
    assert ts == Tokens(s[1..]);
    gaps := [g[0] + 1] + g[1..];
    WeaveLeadingSpace(g, ts);
    assert s == [' '] + s[1..];
    forall i | 0 < i < |ts| ensures gaps[i] >= 1 {
      assert gaps[i] == g[i];
    }
  }

  /** `s` starts with a token: no run before it, then the runs of the rest. */
  lemma GapsAfterToken(s: seq<char>, g: seq<nat>) returns (gaps: seq<nat>)
    requires s != [] && s[0] != ' '
    requires |g| == |Tokens(s[TokenLen(s)..])| + 1
    requires forall i :: 0 < i < |Tokens(s[TokenLen(s)..])| ==> g[i] >= 1
    requires s[TokenLen(s)..] == Weave(g, Tokens(s[TokenLen(s)..]))
    ensures |gaps| == |Tokens(s)| + 1
    ensures forall i :: 0 < i < |Tokens(s)| ==> gaps[i] >= 1
    ensures s == Weave(gaps, Tokens(s))
  {
    var ts := Tokens(s);
    var n := TokenLen(s);
    var token, rest := s[..n], s[n..];
    var rts := Tokens(rest);
    assert ts == [token] + rts;
    if rts != [] {
      FirstGapOfSpaced(rest, g, rts);
    }
    gaps := [0] + g;
    WeaveToken(token, g, rts);
    assert s == token + rest;
    forall i | 0 < i < |ts| ensures gaps[i] >= 1 {
      assert gaps[i] == g[i - 1];
    }
  }

  lemma WeaveLeadingSpace(gaps: seq<nat>, ts: seq<seq<char>>)
    requires |gaps| == |ts| + 1
    ensures Weave([gaps[0] + 1] + gaps[1..], ts) == [' '] + Weave(gaps, ts)
  {
    var gaps' := [gaps[0] + 1] + gaps[1..];
    assert SpaceRun(gaps[0] + 1) == [' '] + SpaceRun(gaps[0]);
    assert gaps'[1..] == gaps[1..];
  }

  lemma WeaveToken(token: seq<char>, gaps: seq<nat>, ts: seq<seq<char>>)
    requires |gaps| == |ts| + 1
    ensures Weave([0] + gaps, [token] + ts) == token + Weave(gaps, ts)
  {
    var gaps', ts' := [0] + gaps, [token] + ts;
    assert gaps'[1..] == gaps && ts'[1..] == ts;
    assert SpaceRun(0) == [];
  }

  /** Text that starts with a space and weaves a first non-empty token that
      holds no space has a non-empty first gap. */
  lemma FirstGapOfSpaced(rest: seq<char>, gaps: seq<nat>, ts: seq<seq<char>>)
    requires |gaps| == |ts| + 1 && ts != [] && ts[0] != [] && ' ' !in ts[0]
    requires rest == Weave(gaps, ts) && rest != [] && rest[0] == ' '
    ensures gaps[0] >= 1
  {
    assert rest == SpaceRun(gaps[0]) + ts[0] + Weave(gaps[1..], ts[1..]);
    assert ts[0][0] in ts[0];
  }

  /** Tokenising keeps every non-space character, in order, and nothing else,
      and it splits exactly at the runs of spaces. */
  lemma {:induction false} TokensKeepAllButSpaces(s: seq<char>)
    ensures Concat(Tokens(s)) == RemoveSpaces(s)
    ensures SplitAtSpaceRuns(s, Tokens(s))
  {
    TokensSplitAtSpaceRuns(s);
    if s == [] {
    } else if s[0] == ' ' {
      TokensKeepAllButSpaces(s[1..]);
    } else {
      var n := TokenLen(s);
      var token, rest := s[..n], s[n..];
      assert Tokens(s) == [token] + Tokens(rest);
      TokensKeepAllButSpaces(rest);
      assert s == token + rest;
      RemoveSpacesAppend(token, rest);
      RemoveSpacesOfToken(token);
    }
  }

  // ---------------------------------------------------------------------------
  // strtoul / strtol

  /** `isspace` in the C locale. */
  predicate IsSpace(c: char)
  {
    c == ' ' || c == '\t' || c == '\n' || c == 11 as char || c == 12 as char || c == '\r'
  }

  function SkipSpace(s: seq<char>): (r: seq<char>)
    ensures |r| <= |s|
    ensures r == [] || !IsSpace(r[0])
  {
    if s != [] && IsSpace(s[0]) then SkipSpace(s[1..]) else s
  }

  /** The value of digit `c` in `base`, if it is one: '0'-'9', then letters of either case from 10. */
  function DigitIn(c: char, base: nat): (d: Option<nat>)
    ensures d.Some? ==> d.value < base
  {
    var v :=
      if '0' <= c <= '9' then c as int - '0' as int
      else if 'a' <= c <= 'z' then c as int - 'a' as int + 10
      else if 'A' <= c <= 'Z' then c as int - 'A' as int + 10
      else 36;
    if v < base then Some(v) else None
  }

  predicate AllDigits(ds: seq<char>, base: nat)
  {
    forall i :: 0 <= i < |ds| ==> DigitIn(ds[i], base).Some?
  }

  /** Length of the longest prefix of `s` made of digits of `base`. */
  function DigitRunLen(s: seq<char>, base: nat): (n: nat)
    ensures n <= |s| && AllDigits(s[..n], base)
    ensures n < |s| ==> DigitIn(s[n], base).None?
  {
    if s == [] || DigitIn(s[0], base).None? then 0 else 1 + DigitRunLen(s[1..], base)
  }

  /** The number a digit string denotes, most significant digit first. */
  function DigitsValue(ds: seq<char>, base: nat): nat
    requires AllDigits(ds, base)
  {
    if ds == [] then 0
    else DigitsValue(ds[..|ds| - 1], base) * base + DigitIn(ds[|ds| - 1], base).value
  }

  /** What the conversion routines read: the sign and the magnitude of the
      digits found, or that no digits were found (`*endptr == nptr`). */
  datatype Scan = NoDigits | Number(negative: bool, magnitude: nat)

  /** glibc's scan for `strto[u]l(s, &end, base)`: leading white space, an
      optional sign, a "0x"/"0X" prefix for bases 0 and 16, base 0 picking
      8 after a leading '0' and 10 otherwise, then the longest digit run.
      "0x" followed by no hexadecimal digit converts the '0' alone. */
  function ScanInteger(s: seq<char>, base: nat): Scan
    requires base == 0 || base == 8 || base == 10 || base == 16
  {
    var t := SkipSpace(s);
    var negative := t != [] && t[0] == '-';
    var u := if t != [] && (t[0] == '-' || t[0] == '+') then t[1..] else t;
    if (base == 0 || base == 16) && |u| >= 2 && u[0] == '0' && (u[1] == 'x' || u[1] == 'X') then
      var n := DigitRunLen(u[2..], 16);
      Number(negative, DigitsValue(u[2..][..n], 16))
    else
      var b := if base != 0 then base else if u != [] && u[0] == '0' then 8 else 10;
      var n := DigitRunLen(u, b);
      if n == 0 then NoDigits else Number(negative, DigitsValue(u[..n], b))
  }

  /** The signed number a scan read. */
  function Signed(sc: Scan): int
    requires sc.Number?
  {
    if sc.negative then 0 - sc.magnitude else sc.magnitude
  }

  /** What a conversion routine hands back: no conversion (`*endptr == nptr`,
      value 0), a value, or `errno == ERANGE` with the saturated value. */
  datatype Conversion = NoConversion | Converted(value: int) | OutOfRange(value: int)

  /** `strtoul(s, &end, base)` on a 64-bit `unsigned long`: a magnitude above
      ULONG_MAX (U64_MAX) is a range error; a negative number wraps modulo 2^64. */
  function Strtoul(s: seq<char>, base: nat): (r: Conversion)
    requires base == 0 || base == 8 || base == 10 || base == 16
    ensures r.Converted? ==> 0 <= r.value <= U64_MAX
    ensures r.OutOfRange? ==> r.value == U64_MAX
    ensures r.NoConversion? <==> ScanInteger(s, base).NoDigits?
    ensures ScanInteger(s, base).Number? ==>
      (r.OutOfRange? <==> ScanInteger(s, base).magnitude > U64_MAX)
    ensures r.Converted? ==>
      (r.value - Signed(ScanInteger(s, base))) % (U64_MAX + 1) == 0
  {
    match ScanInteger(s, base)
    case NoDigits => NoConversion
    case Number(negative, m) =>
      if m > U64_MAX then OutOfRange(U64_MAX)
      else if negative then WrapNegation(m); Converted((U64_MAX + 1 - m) % (U64_MAX + 1))
      else Converted(m)
  }

  /** Negating a magnitude in 64-bit unsigned arithmetic leaves it congruent
      to the negative number modulo 2^64. */
  lemma WrapNegation(m: nat)
    requires m <= U64_MAX
    ensures 0 <= (U64_MAX + 1 - m) % (U64_MAX + 1) <= U64_MAX
    ensures ((U64_MAX + 1 - m) % (U64_MAX + 1) - (0 - m)) % (U64_MAX + 1) == 0
  {
    if m == 0 {
      assert (U64_MAX + 1 - m) % (U64_MAX + 1) == 0;
    } else {
      assert (U64_MAX + 1 - m) % (U64_MAX + 1) == U64_MAX + 1 - m;
    }
  }

  /** `strtol(s, &end, base)` on a 64-bit `long`: saturates at LONG_MIN/LONG_MAX
      with a range error. */
  function Strtol(s: seq<char>, base: nat): (r: Conversion)
    requires base == 0 || base == 8 || base == 10 || base == 16
    ensures !r.NoConversion? ==> LONG_MIN <= r.value <= LONG_MAX
    ensures r.NoConversion? <==> ScanInteger(s, base).NoDigits?
    ensures ScanInteger(s, base).Number? ==>
      (r.Converted? <==> LONG_MIN <= Signed(ScanInteger(s, base)) <= LONG_MAX)
    ensures r.Converted? ==> r.value == Signed(ScanInteger(s, base))
    ensures r.OutOfRange? ==> r.value == if ScanInteger(s, base).negative then LONG_MIN else LONG_MAX
  {
    match ScanInteger(s, base)
    case NoDigits => NoConversion
    case Number(negative, m) =>
      if !negative && m > LONG_MAX then OutOfRange(LONG_MAX)
      else if negative && m > -LONG_MIN then OutOfRange(LONG_MIN)
      else Converted(if negative then 0 - m else m)
  }

  /** The value a conversion routine returns, whatever `errno` says. */
  function Returned(c: Conversion): int
  {
    match c
    case NoConversion => 0
    case Converted(v) => v
    case OutOfRange(v) => v
  }

  /** Assigning a `long` to an `int`: the value is reduced modulo 2^32 into
      [-2^31, 2^31), as GCC defines the conversion. */
  function ToInt32(v: int): (r: int)
    ensures -0x8000_0000 <= r < 0x8000_0000
    ensures (r - v) % 0x1_0000_0000 == 0
    ensures -0x8000_0000 <= v < 0x8000_0000 ==> r == v
  {
    (v + 0x8000_0000) % 0x1_0000_0000 - 0x8000_0000
  }

  // ---------------------------------------------------------------------------
  // Hexadecimal rendering, the partner of the base-16 scan

  function HexChar(d: nat): (c: char)
    requires d < 16
    ensures DigitIn(c, 16) == Some(d)
  {
    if d < 10 then ('0' as int + d) as char else ('a' as int + d - 10) as char
  }

  function Pow16(w: nat): (p: nat)
    ensures p >= 1
  {
    if w == 0 then 1 else 16 * Pow16(w - 1)
  }

  /** `v` written with exactly `w` lower-case hexadecimal digits, zero-padded,
      as the kernel prints addresses in /proc/kallsyms. */
  function PaddedHex(v: nat, w: nat): (s: seq<char>)
    requires v < Pow16(w)
    ensures |s| == w && AllDigits(s, 16)
  {
    if w == 0 then [] else PaddedHex(v / 16, w - 1) + [HexChar(v % 16)]
  }

  lemma {:induction false} PaddedHexValue(v: nat, w: nat)
    requires v < Pow16(w)
    ensures DigitsValue(PaddedHex(v, w), 16) == v
  {
    if w > 0 {
      var s := PaddedHex(v, w);
      PaddedHexValue(v / 16, w - 1);
      assert s[..|s| - 1] == PaddedHex(v / 16, w - 1);
    }
  }

  /** A base-16 scan of text that starts with a plain digit run. */
  lemma ScanPlainHex(s: seq<char>)
    requires s != [] && !IsSpace(s[0]) && s[0] != '-' && s[0] != '+'
    requires |s| >= 2 ==> s[1] != 'x' && s[1] != 'X'
    requires DigitRunLen(s, 16) >= 1
    ensures ScanInteger(s, 16) == Number(false, DigitsValue(s[..DigitRunLen(s, 16)], 16))
  {
    assert SkipSpace(s) == s;
  }

  /** Scanning a padded hexadecimal number that ends at a space reads it back. */
  lemma ScanPaddedHex(v: nat, w: nat, rest: seq<char>)
    requires v < Pow16(w) && w >= 1
    requires rest != [] && rest[0] == ' '
    ensures ScanInteger(PaddedHex(v, w) + rest, 16) == Number(false, v)
  {
    var h := PaddedHex(v, w);
    var s := h + rest;
    assert s[0] == h[0] && DigitIn(h[0], 16).Some?;
    if w >= 2 {
      assert s[1] == h[1] && DigitIn(h[1], 16).Some?;
    } else {
      assert s[1] == rest[0];
    }
    DigitRunIsExact(h, rest);
    assert s[..w] == h;
    ScanPlainHex(s);
    PaddedHexValue(v, w);
  }

  lemma {:induction false} DigitRunIsExact(h: seq<char>, rest: seq<char>)
    requires AllDigits(h, 16)
    requires rest != [] && rest[0] == ' '
    ensures DigitRunLen(h + rest, 16) == |h|
  {
    DigitRunStops(h, rest, 16);
  }

  lemma {:induction false} DigitRunStops(h: seq<char>, rest: seq<char>, base: nat)
    requires AllDigits(h, base)
    requires rest == [] || DigitIn(rest[0], base).None?
    ensures DigitRunLen(h + rest, base) == |h|
  {
    if h != [] {
      assert (h + rest)[1..] == h[1..] + rest;
      DigitRunStops(h[1..], rest, base);
    } else {
      assert h + rest == rest;
    }
  }

  /** `strtoul` in base 10 or 16 on a run of digits followed by a character
      that is not one (and, in base 16, not an 'x' that would make a leading
      "0" a prefix): the value is the number the digits denote, or a range
      error above ULONG_MAX. */
  lemma StrtoulOfDigits(ds: seq<char>, rest: seq<char>, base: nat)
    requires base == 10 || base == 16
    requires ds != [] && AllDigits(ds, base)
    requires rest == [] || (DigitIn(rest[0], base).None? && rest[0] != 'x' && rest[0] != 'X')
    ensures ScanInteger(ds + rest, base) == Number(false, DigitsValue(ds, base))
    ensures Strtoul(ds + rest, base) ==
      if DigitsValue(ds, base) > U64_MAX then OutOfRange(U64_MAX) else Converted(DigitsValue(ds, base))
  {
    var s := ds + rest;
    assert s[0] == ds[0] && DigitIn(ds[0], base).Some?;
    assert SkipSpace(s) == s;
    if |s| >= 2 {
      if |ds| >= 2 {
        assert s[1] == ds[1] && DigitIn(ds[1], base).Some?;
      } else {
        assert s[1] == rest[0];
      }
    }
    assert s[0] != '-' && s[0] != '+';
    assert !(|s| >= 2 && s[0] == '0' && (s[1] == 'x' || s[1] == 'X'));
    DigitRunStops(ds, rest, base);
    assert s[..|ds|] == ds;
    assert ScanInteger(s, base) == Number(false, DigitsValue(ds, base));
  }
}

=== FILE: cpu_residency.dfy ===
/** Per-CPU run residency of the busiest threads of one process: the ten
    (tid, thread name) groups with the largest summed slice duration, and
    for each of their tids the share of its run time spent on each CPU. */
module CpuResidency {
  import opened Wrappers
  import opened Sums

  /** One row of the `sched_slice` query. */
  datatype Slice = Slice(ts: int, dur: int, cpu: int, processName: string, threadName: string, tid: int)

  /** A `groupby(['tid', 'thread_name'])` group. */
  datatype GroupKey = GroupKey(tid: int, threadName: string)

  /** A `groupby(['tid', 'thread_name', 'cpu'])` group. */
  datatype ShareKey = ShareKey(tid: int, threadName: string, cpu: int)

  /** `nr_top`. */
  const NR_TOP: nat := 10

  /** Each slice's duration filed under its (tid, thread name) group. */
  function GroupItems(slices: seq<Slice>): (items: seq<(GroupKey, real)>)
    ensures |items| == |slices|
    ensures forall i :: 0 <= i < |slices| ==>
      items[i] == (GroupKey(slices[i].tid, slices[i].threadName), slices[i].dur as real)
  {
    if slices == [] then []
    else [(GroupKey(slices[0].tid, slices[0].threadName), slices[0].dur as real)] + GroupItems(slices[1..])
  }

  /** `s` without its j-th element. */
  function RemoveAt(s: seq<GroupKey>, j: nat): (r: seq<GroupKey>)
    requires j < |s| && Distinct(s)
    ensures |r| == |s| - 1 && Distinct(r)
    ensures forall k :: k in r <==> k in s && k != s[j]
  {
    var r := s[..j] + s[j + 1..];
    assert forall a :: 0 <= a < |r| ==> r[a] == if a < j then s[a] else s[a + 1];
    r
  }

  /** The position of a largest group among `keys`, the first one on ties. */
  method ArgMax(items: seq<(GroupKey, real)>, keys: seq<GroupKey>) returns (j: nat)
    requires keys != []
    ensures j < |keys|
    ensures forall k :: k in keys ==> KeyedSum(items, k) <= KeyedSum(items, keys[j])
  {
    j := 0;
    var best := KeyedSum(items, keys[0]);
    for a := 1 to |keys|
      invariant j < |keys| && best == KeyedSum(items, keys[j])
      invariant forall b :: 0 <= b < a ==> KeyedSum(items, keys[b]) <= best
    {
      var d := KeyedSum(items, keys[a]);
      if d > best {
        j, best := a, d;
      }
    }
  }

  /** `top` is a top-n selection of the groups of `items`: min(n, number of
      groups) distinct groups, ordered by descending sum, and no group left
      out has a larger sum than one selected. */
  predicate IsTopN(items: seq<(GroupKey, real)>, n: nat, top: seq<GroupKey>)
  {
    && |top| == Min(n, |KeysOf(items)|)
    && Distinct(top)
    && (forall k :: k in top ==> k in KeysOf(items))
    && (forall i, j :: 0 <= i < j < |top| ==> KeyedSum(items, top[i]) >= KeyedSum(items, top[j]))
    && (forall k, t :: k in KeysOf(items) && k !in top && t in top ==> KeyedSum(items, k) <= KeyedSum(items, t))
  }

  /** `groupby(...).dur.sum().sort_values(ascending=False).head(n)`: the n
      groups with the largest sums, largest first. Groups with equal sums
      may come in any order in the program (the sort is not stable); here
      the earlier group in `KeysOf` order comes first. */
  method TopN(items: seq<(GroupKey, real)>, n: nat) returns (top: seq<GroupKey>)
    ensures IsTopN(items, n, top)
  {
    var cands := KeysOf(items);
    var remaining := cands;
    top := [];
    while |top| < n && remaining != []
      invariant Distinct(remaining) && Distinct(top)
      invariant |top| + |remaining| == |cands| && |top| <= n
      invariant forall k :: k in cands <==> k in top || k in remaining
      invariant forall k :: k in top ==> k !in remaining
      invariant forall i, j :: 0 <= i < j < |top| ==> KeyedSum(items, top[i]) >= KeyedSum(items, top[j])
      invariant forall k, t :: k in remaining && t in top ==> KeyedSum(items, k) <= KeyedSum(items, t)
      decreases |remaining|
    {
      var j := ArgMax(items, remaining);
      var pick := remaining[j];
      top := top + [pick];
      remaining := RemoveAt(remaining, j);
    }
  }

  /** A tid's slices filed under (tid, thread name, cpu). */
  function TidItems(slices: seq<Slice>, tid: int): (items: seq<(ShareKey, real)>)
    ensures forall i :: 0 <= i < |items| ==> items[i].0.tid == tid
  {
    if slices == [] then []
    else
      var s := slices[0];
      (if s.tid == tid then [(ShareKey(s.tid, s.threadName, s.cpu), s.dur as real)] else [])
        + TidItems(slices[1..], tid)
  }

  /** One row of `df_top_percent`; the share is None where pandas computes
      0 * 100 / 0 or x * 100 / 0 (NaN or infinity). */
  datatype ShareRow = ShareRow(key: ShareKey, pct: Option<real>)

  /** The rows `__init` appends for one tid: each (thread name, cpu) group's
      duration times 100 over the tid's total duration. */
  function TidShares(slices: seq<Slice>, tid: int): (rows: seq<ShareRow>)
    ensures |rows| == |KeysOf(TidItems(slices, tid))|
    ensures forall i :: 0 <= i < |rows| ==> rows[i].key == KeysOf(TidItems(slices, tid))[i] && rows[i].key.tid == tid
    ensures forall i :: 0 <= i < |rows| ==>
      (rows[i].pct.Some? <==> Total(TidItems(slices, tid)) != 0.0)
    ensures forall i :: 0 <= i < |rows| && rows[i].pct.Some? ==>
      rows[i].pct.value == KeyedSum(TidItems(slices, tid), rows[i].key) * 100.0 / Total(TidItems(slices, tid))
  {
    var items := TidItems(slices, tid);
    var keys := KeysOf(items);
    var total := Total(items);
    KeysKeepTid(items, tid);
    if total == 0.0 then WithShares(keys, None)
    else WithShares(keys, Some(Shares(items, keys, total)))
  }

  /** The group keys of one tid's items all carry that tid. */
  lemma KeysKeepTid(items: seq<(ShareKey, real)>, tid: int)
    requires forall i :: 0 <= i < |items| ==> items[i].0.tid == tid
    ensures forall k :: 0 <= k < |KeysOf(items)| ==> KeysOf(items)[k].tid == tid
  {
    var keys := KeysOf(items);
    forall k | 0 <= k < |keys| ensures keys[k].tid == tid {
      assert keys[k] in keys;
    }
  }

  function WithShares(keys: seq<ShareKey>, pct: Option<seq<real>>): (rows: seq<ShareRow>)
    requires pct.Some? ==> |pct.value| == |keys|
    ensures |rows| == |keys|
    ensures forall i :: 0 <= i < |keys| ==>
      rows[i].key == keys[i] && rows[i].pct == if pct.Some? then Some(pct.value[i]) else None
  {
    if keys == [] then []
    else
      match pct
      case None => [ShareRow(keys[0], None)] + WithShares(keys[1..], None)
      case Some(p) => [ShareRow(keys[0], Some(p[0]))] + WithShares(keys[1..], Some(p[1..]))
  }

  /** The percentages of rows whose share is a number. */
  function Percentages(rows: seq<ShareRow>): (pcts: seq<real>)
  {
    if rows == [] then []
    else (if rows[0].pct.Some? then [rows[0].pct.value] else []) + Percentages(rows[1..])
  }

  lemma PercentagesCons(row: ShareRow, rows: seq<ShareRow>)
    ensures Percentages([row] + rows) ==
      (if row.pct.Some? then [row.pct.value] else []) + Percentages(rows)
  {
    assert ([row] + rows)[1..] == rows;
  }

  lemma {:induction false} PercentagesOfShares(keys: seq<ShareKey>, pct: seq<real>)
    requires |pct| == |keys|
    ensures Percentages(WithShares(keys, Some(pct))) == pct
  {
    if keys != [] {
      var head, rest := ShareRow(keys[0], Some(pct[0])), WithShares(keys[1..], Some(pct[1..]));
      assert WithShares(keys, Some(pct)) == [head] + rest;
      PercentagesCons(head, rest);
      PercentagesOfShares(keys[1..], pct[1..]);
      assert pct == [pct[0]] + pct[1..];
    }
  }

  /** For a tid that ran at all, its per-CPU shares sum to exactly 100. */
  lemma TidSharesSumTo100(slices: seq<Slice>, tid: int)
    requires Total(TidItems(slices, tid)) != 0.0
    ensures Sum(Percentages(TidShares(slices, tid))) == 100.0
  {
    var items := TidItems(slices, tid);
    var keys := KeysOf(items);
    PercentagesOfShares(keys, Shares(items, keys, Total(items)));
    SharesOfTotalSumTo100(items, keys);
  }

  /** `df_top_percent`: the tid shares of every selected group, in order. */
  function TopPercent(slices: seq<Slice>, top: seq<GroupKey>): (rows: seq<ShareRow>)
    ensures forall i :: 0 <= i < |rows| ==> rows[i].key.tid in GroupTids(top)
    ensures top != [] && slices != [] && top[0].tid in TidsOf(slices) ==> rows != []
  {
    if top == [] then []
    else
      assert top[0].tid in TidsOf(slices) ==> TidShares(slices, top[0].tid) != [] by {
        if top[0].tid in TidsOf(slices) {
          TidsHaveShares(slices, top[0].tid);
        }
      }
      TidShares(slices, top[0].tid) + TopPercent(slices, top[1..])
  }

  /** `pd.concat` over the loop: selecting groups `a` then `b` appends
      their rows. With `TopPercentSingle`, `df_top_percent` is the tid shares
      of `top[0]`, `top[1]`, ... laid end to end. */
  lemma {:induction false} TopPercentConcat(slices: seq<Slice>, a: seq<GroupKey>, b: seq<GroupKey>)
    ensures TopPercent(slices, a + b) == TopPercent(slices, a) + TopPercent(slices, b)
  {
    if a != [] {
      var ab, rest := a + b, a[1..] + b;
      assert ab[0] == a[0] && ab[1..] == rest;
      var x, p, q := TidShares(slices, a[0].tid), TopPercent(slices, a[1..]), TopPercent(slices, b);
      TopPercentCons(slices, ab);
      TopPercentConcat(slices, a[1..], b);
      assert TopPercent(slices, ab) == x + (p + q);
      TopPercentCons(slices, a);
      assert TopPercent(slices, a) == x + p;
      AppendAssoc(x, p, q);
    } else {
      assert a + b == b;
      assert TopPercent(slices, a) == [];
    }
  }

  /** One selected group contributes exactly its tid's share rows. */
  lemma TopPercentSingle(slices: seq<Slice>, g: GroupKey)
    ensures TopPercent(slices, [g]) == TidShares(slices, g.tid)
  {
    TopPercentCons(slices, [g]);
    assert [g][1..] == [];
  }

  lemma TopPercentCons(slices: seq<Slice>, top: seq<GroupKey>)
    requires top != []
    ensures TopPercent(slices, top) == TidShares(slices, top[0].tid) + TopPercent(slices, top[1..])
  {
  }

  /** The tids of the selected groups. */
  function GroupTids(top: seq<GroupKey>): set<int>
  {
    set g | g in top :: g.tid
  }

  function TidsOf(slices: seq<Slice>): set<int>
  {
    set s | s in slices :: s.tid
  }

  /** A tid that occurs in the slices has at least one share row. */
  lemma TidsHaveShares(slices: seq<Slice>, tid: int)
    requires tid in TidsOf(slices)
    ensures TidShares(slices, tid) != []
  {
    var i :| 0 <= i < |slices| && slices[i].tid == tid;
    TidItemsNonEmpty(slices, tid, i);
    var items := TidItems(slices, tid);
    assert items[0].0 in KeysOf(items);
  }

  lemma {:induction false} TidItemsNonEmpty(slices: seq<Slice>, tid: int, i: nat)
    requires i < |slices| && slices[i].tid == tid
    ensures TidItems(slices, tid) != []
  {
    if slices[0].tid != tid {
      TidItemsNonEmpty(slices[1..], tid, i - 1);
    }
  }

  /** The module's globals: the process name and `df_top_percent`, each
      None while undefined. */
  datatype ResidencyState = ResidencyState(processName: Option<string>, topPercent: Option<seq<ShareRow>>)

  /** `init(trace, process_name)`, with `loaded` the slices the query
      returns for the first name. No non-empty name: nothing happens. An
      empty result: only the name is recorded. */
  method Init(s: ResidencyState, names: seq<string>, loaded: seq<Slice>) returns (r: ResidencyState)
    ensures (forall i :: 0 <= i < |names| ==> names[i] == "") ==> r == s
    ensures (exists i :: 0 <= i < |names| && names[i] != "") ==> r.processName == Some(names[0])
    ensures (exists i :: 0 <= i < |names| && names[i] != "") && loaded == [] ==> r.topPercent == s.topPercent
    ensures (exists i :: 0 <= i < |names| && names[i] != "") && loaded != [] ==>
      exists top :: IsTopN(GroupItems(loaded), NR_TOP, top) && r.topPercent == Some(TopPercent(loaded, top))
  {
    var any := false;
    for i := 0 to |names|
      invariant any <==> exists j :: 0 <= j < i && names[j] != ""
    {
      if names[i] != "" {
        any := true;
      }
    }
    if !any {
      return s;
    }
    r := s.(processName := Some(names[0]));
    if loaded == [] {
      return;
    }
    var top := TopN(GroupItems(loaded), NR_TOP);
    r := r.(topPercent := Some(TopPercent(loaded, top)));
  }

  /** Reading a global that was never assigned. */
  datatype NameError = NameError

  /** `summary`: the tids whose residency is plotted, one per row of
      `df_top_percent`; nothing when it is empty. */
  function Summary(s: ResidencyState): (r: Result<seq<int>, NameError>)
    ensures r.Failure? <==> s.topPercent.None?
    ensures r.Success? ==> |r.value| == |s.topPercent.value|
    ensures r.Success? && s.topPercent.value == [] ==> r.value == []
    ensures r.Success? ==> forall i :: 0 <= i < |r.value| ==> r.value[i] == s.topPercent.value[i].key.tid
  {
    if s.topPercent.None? then Failure(NameError)
    else if s.topPercent.value == [] then Success([])
    else Success(TidsOfRows(s.topPercent.value))
  }

  function TidsOfRows(rows: seq<ShareRow>): (tids: seq<int>)
    ensures |tids| == |rows| && forall i :: 0 <= i < |rows| ==> tids[i] == rows[i].key.tid
  {
    if rows == [] then [] else [rows[0].key.tid] + TidsOfRows(rows[1..])
  }

  /** Every tid `summary` plots belongs to one of the selected groups. */
  lemma SummaryPlotsSelected(slices: seq<Slice>, top: seq<GroupKey>, name: string)
    ensures forall tid :: tid in Summary(ResidencyState(Some(name), Some(TopPercent(slices, top)))).value ==>
      tid in GroupTids(top)
  {
  }

  /** `save_csv(prefix)`: nothing when `df_top_percent` is empty, otherwise
      the file name and the rows written to it. */
  function SaveCsv(s: ResidencyState, prefix: string): (r: Result<Option<(string, seq<ShareRow>)>, NameError>)
    ensures r.Failure? <==> s.topPercent.None? || (s.topPercent.value != [] && s.processName.None?)
    ensures r.Success? ==> (r.value.None? <==> s.topPercent.value == [])
    ensures r.Success? && r.value.Some? ==>
      var (file, rows) := r.value.value;
      rows == s.topPercent.value &&
      file == prefix + "_run_residency_" + s.processName.value + ".csv"
  {
    if s.topPercent.None? then Failure(NameError)
    else if s.topPercent.value == [] then Success(None)
    else if s.processName.None? then Failure(NameError)
    else Success(Some((prefix + "_run_residency_" + s.processName.value + ".csv", s.topPercent.value)))
  }
}

=== FILE: freq.dfy ===
/** CPU frequency post-processing: grouping CPUs into clusters whose
    frequency series are identical, the memoised loading of the frequency
    frame, and the subplot/colour bookkeeping of the plot loops. */
module Freq {
  import opened Wrappers

  /** One `cpufreq` counter sample. */
  datatype FreqRow = FreqRow(ts: int, cpu: int, freq: real)

  /** `df_freq[df_freq.cpu == cpu].freq.values`: the CPU's samples in frame
      order. */
  function FreqsOf(rows: seq<FreqRow>, cpu: int): (f: seq<real>)
    ensures |f| <= |rows|
  {
    if rows == [] then []
    else (if rows[0].cpu == cpu then [rows[0].freq] else []) + FreqsOf(rows[1..], cpu)
  }

  /** `len(df_freq.cpu.unique())`. */
  function NrCpus(rows: seq<FreqRow>): nat
  {
    |set r | r in rows :: r.cpu|
  }

  /** `clusters` describes the CPUs 0 .. n-1: it starts at CPU 0 and climbs
      strictly; each later head has a series different from the head before
      it; and every CPU shares the series of the nearest head at or below
      it. */
  predicate IsClustering(rows: seq<FreqRow>, n: int, clusters: seq<int>)
  {
    && |clusters| >= 1 && clusters[0] == 0
    && (forall i :: 0 < i < |clusters| ==> clusters[i - 1] < clusters[i] < n)
    && (forall i :: 0 < i < |clusters| ==> FreqsOf(rows, clusters[i - 1]) != FreqsOf(rows, clusters[i]))
    && Covered(rows, n, clusters)
  }

  /** Every CPU from a head up to the next head (or up to n after the last
      head) has the head's series. */
  predicate Covered(rows: seq<FreqRow>, n: int, clusters: seq<int>)
  {
    forall i, c :: 0 <= i < |clusters| && clusters[i] <= c < NextHead(clusters, i, n) ==>
      FreqsOf(rows, c) == FreqsOf(rows, clusters[i])
  }

  /** The CPU after the last one headed by `clusters[i]`. */
  function NextHead(clusters: seq<int>, i: nat, n: int): int
    requires i < |clusters|
  {
    if i + 1 < |clusters| then clusters[i + 1] else n
  }

  /** The state of the scan once the CPUs below `cpu` are processed. */
  predicate Progress(rows: seq<FreqRow>, cpu: int, clusters: seq<int>)
  {
    && |clusters| >= 1 && clusters[0] == 0
    && (cpu == 0 ==> clusters == [0])
    && (cpu > 0 ==> clusters[|clusters| - 1] < cpu)
    && (forall i :: 0 < i < |clusters| ==> clusters[i - 1] < clusters[i] < cpu)
    && (forall i :: 0 < i < |clusters| ==> FreqsOf(rows, clusters[i - 1]) != FreqsOf(rows, clusters[i]))
    && Covered(rows, cpu, clusters)
  }

  /** A CPU with the last head's series joins the last cluster. */
  lemma ExtendLast(rows: seq<FreqRow>, cpu: nat, clusters: seq<int>)
    requires Progress(rows, cpu, clusters)
    requires FreqsOf(rows, cpu) == FreqsOf(rows, clusters[|clusters| - 1])
    ensures Progress(rows, cpu + 1, clusters)
  {
    forall i, c | 0 <= i < |clusters| && clusters[i] <= c < NextHead(clusters, i, cpu + 1)
      ensures FreqsOf(rows, c) == FreqsOf(rows, clusters[i])
    {
      if c < NextHead(clusters, i, cpu) {
      } else {
        assert i == |clusters| - 1 && c == cpu;
      }
    }
  }

  /** A CPU whose series differs from the last head's starts a new cluster. */
  lemma AppendHead(rows: seq<FreqRow>, cpu: nat, clusters: seq<int>)
    requires Progress(rows, cpu, clusters)
    requires FreqsOf(rows, cpu) != FreqsOf(rows, clusters[|clusters| - 1])
    ensures Progress(rows, cpu + 1, clusters + [cpu])
  {
    var cs := clusters + [cpu];
    assert cpu > 0;
    AppendCovers(rows, cpu, clusters);
    assert forall i :: 0 <= i < |clusters| ==> cs[i] == clusters[i];
  }

  lemma AppendCovers(rows: seq<FreqRow>, cpu: int, clusters: seq<int>)
    requires clusters != [] && clusters[|clusters| - 1] < cpu
    requires Covered(rows, cpu, clusters)
    ensures Covered(rows, cpu + 1, clusters + [cpu])
  {
    var cs := clusters + [cpu];
    forall i, c | 0 <= i < |cs| && cs[i] <= c < NextHead(cs, i, cpu + 1)
      ensures FreqsOf(rows, c) == FreqsOf(rows, cs[i])
    {
      if i < |clusters| {
        assert cs[i] == clusters[i] && NextHead(cs, i, cpu + 1) == NextHead(clusters, i, cpu);
      }
    }
  }

  /** `__find_clusters`, computing from scratch: walk the CPUs in order and
      start a new cluster whenever a CPU's series differs from the current
      head's. */
  method FindClusters(rows: seq<FreqRow>) returns (clusters: seq<int>)
    ensures IsClustering(rows, NrCpus(rows), clusters)
  {
    var n := NrCpus(rows);
    clusters := [0];
    var head := FreqsOf(rows, 0);
    for cpu := 0 to n
      invariant Progress(rows, cpu, clusters)
      invariant head == FreqsOf(rows, clusters[|clusters| - 1])
    {
      var next := FreqsOf(rows, cpu);
      if head == next {
        ExtendLast(rows, cpu, clusters);
        continue;
      }
      AppendHead(rows, cpu, clusters);
      head := next;
      clusters := clusters + [cpu];
    }
  }

  /** The module's globals: the frequency frame and the cluster list, each
      None until set. */
  datatype FreqState = FreqState(dfFreq: Option<seq<FreqRow>>, clusters: Option<seq<int>>)

  /** Python truthiness of `clusters`: set and non-empty. */
  predicate Computed(clusters: Option<seq<int>>)
  {
    clusters.Some? && clusters.value != []
  }

  /** `__find_clusters` with its guard: a no-op once clusters are known. */
  method FindClustersOnce(s: FreqState) returns (r: FreqState)
    requires Computed(s.clusters) || s.dfFreq.Some?
    ensures Computed(s.clusters) ==> r == s
    ensures !Computed(s.clusters) ==>
      r.dfFreq == s.dfFreq && r.clusters.Some? &&
      IsClustering(s.dfFreq.value, NrCpus(s.dfFreq.value), r.clusters.value)
    ensures Computed(r.clusters)
  {
    if Computed(s.clusters) {
      return s;
    }
    var clusters := FindClusters(s.dfFreq.value);
    r := s.(clusters := Some(clusters));
  }

  /** `df_freq.freq / 1000000`: every frequency scaled down by 10^6. */
  function ScaleFreq(rows: seq<FreqRow>): (r: seq<FreqRow>)
    ensures |r| == |rows|
    ensures forall i :: 0 <= i < |rows| ==>
      r[i].ts == rows[i].ts && r[i].cpu == rows[i].cpu && r[i].freq * 1000000.0 == rows[i].freq
  {
    if rows == [] then []
    else [rows[0].(freq := rows[0].freq / 1000000.0)] + ScaleFreq(rows[1..])
  }

  /** `__init`: load the frame once (the query result is `loaded`), stop if
      it is empty, otherwise scale the frequencies down by 10^6 and find the clusters. */
  method Load(s: FreqState, loaded: seq<FreqRow>) returns (r: FreqState)
    requires s.dfFreq.Some? || !Computed(s.clusters)
    ensures s.dfFreq.None? && loaded == [] ==> r == s.(dfFreq := Some([]))
    ensures s.dfFreq.None? && loaded != [] ==>
      r.dfFreq == Some(ScaleFreq(loaded)) && r.clusters.Some? &&
      IsClustering(ScaleFreq(loaded), NrCpus(ScaleFreq(loaded)), r.clusters.value)
    ensures s.dfFreq.Some? ==> r.dfFreq == s.dfFreq && Computed(r.clusters)
    ensures Computed(s.clusters) ==> r.clusters == s.clusters
  {
    var s' := s;
    if s.dfFreq.None? {
      if loaded == [] {
        return s.(dfFreq := Some([]));
      }
      s' := s.(dfFreq := Some(ScaleFreq(loaded)));
    }
    r := FindClustersOnce(s');
  }

  /** `init`: reset both globals, then `__init`. Empty frequency data leaves
      the clusters unset; otherwise they describe the scaled frame. */
  method Init(loaded: seq<FreqRow>) returns (r: FreqState)
    ensures loaded == [] ==> r == FreqState(Some([]), None)
    ensures loaded != [] ==>
      r.dfFreq == Some(ScaleFreq(loaded)) && r.clusters.Some? &&
      IsClustering(ScaleFreq(loaded), NrCpus(ScaleFreq(loaded)), r.clusters.value)
  {
    r := Load(FreqState(None, None), loaded);
  }

  const COLOURS: seq<char> := ['b', 'y', 'r']

  /** Where one cluster is drawn: its position in `clusters`, the subplot
      row, and the index into the colour list. */
  datatype Slot = Slot(cluster: nat, rowPos: int, colour: int)

  /** The bookkeeping of the plot loops over `clusters`: `drawn[k]` says
      whether the k-th cluster gets a plot. Each drawn cluster takes the
      next subplot row and the next colour, the colour index wrapping from
      2 back to 0. (The residency plot draws every cluster.) */
  method PlotSlots(drawn: seq<bool>) returns (slots: seq<Slot>)
    ensures forall m :: 0 <= m < |slots| ==>
      slots[m].rowPos == m + 1 && slots[m].colour == m % 3 && 0 <= slots[m].colour < |COLOURS|
    ensures forall m :: 0 <= m < |slots| ==> slots[m].cluster < |drawn| && drawn[slots[m].cluster]
    ensures forall m, m' :: 0 <= m < m' < |slots| ==> slots[m].cluster < slots[m'].cluster
    ensures forall k :: 0 <= k < |drawn| && drawn[k] ==> exists m :: 0 <= m < |slots| && slots[m].cluster == k
    ensures |slots| <= |drawn|
  {
    slots := [];
    var i := 0;
    var rowPos := 1;
    for k := 0 to |drawn|
      invariant rowPos == |slots| + 1 && i == |slots| % 3
      invariant |slots| <= k
      invariant forall m :: 0 <= m < |slots| ==> slots[m].rowPos == m + 1 && slots[m].colour == m % 3
      invariant forall m :: 0 <= m < |slots| ==> slots[m].cluster < k && drawn[slots[m].cluster]
      invariant forall m, m' :: 0 <= m < m' < |slots| ==> slots[m].cluster < slots[m'].cluster
      invariant forall j :: 0 <= j < k && drawn[j] ==> exists m :: 0 <= m < |slots| && slots[m].cluster == j
    {
      if !drawn[k] {
        continue;
      }
      ghost var before := slots;
      slots := slots + [Slot(k, rowPos, i)];
      assert forall m :: 0 <= m < |before| ==> slots[m] == before[m];
      assert slots[|before|].cluster == k;
      rowPos := rowPos + 1;
      i := i + 1;
      if i == 3 {
        i := 0;
      }
    }
  }
}

=== FILE: idle.dfy ===
/** CPU idle post-processing: loading the `cpuidle` counter frame (rebased to
    its first sample, in seconds, with the exit-from-idle sentinel mapped to
    -1), the 4-column subplot grid, and the per-CPU idle-state residency. */
module Idle {
  import opened Settings
  import opened Sums
  import Utils

  /** The raw counter value the kernel reports on exit from idle. */
  const EXIT_IDLE: int := 4294967295

  /** One raw `cpuidle` sample; `idle` is the state number or the sentinel. */
  datatype IdleRow = IdleRow(ts: int, cpu: int, idle: int)

  /** The columns kept next to the seconds index. */
  datatype IdleSample = IdleSample(cpu: int, idle: int)

  /** `replace(4294967295, -1)` on one value. */
  function ReplaceSentinel(v: int): (r: int)
    ensures r != EXIT_IDLE
    ensures v == EXIT_IDLE ==> r == -1
    ensures v != EXIT_IDLE ==> r == v
  {
    if v == EXIT_IDLE then -1 else v
  }

  /** Replacing again changes nothing. */
  lemma ReplaceIdempotent(v: int)
    ensures ReplaceSentinel(ReplaceSentinel(v)) == ReplaceSentinel(v)
  {
  }

  /** One sample as `__init` leaves it: indexed by seconds since `t0`, the
      sentinel replaced. */
  function Sample(row: IdleRow, t0: int): (r: Row<IdleSample>)
    ensures r.value.cpu == row.cpu && r.value.idle != EXIT_IDLE
    ensures r.index * Utils.NS_PER_SEC == (row.ts - t0) as real
    ensures r.index == Utils.ToSeconds(row.ts, t0) && r.value.idle == ReplaceSentinel(row.idle)
  {
    Row(Utils.ToSeconds(row.ts, t0), IdleSample(row.cpu, ReplaceSentinel(row.idle)))
  }

  /** The frame `__init` builds before filtering. */
  function Prepare(rows: seq<IdleRow>, t0: int): (r: seq<Row<IdleSample>>)
    ensures |r| == |rows|
    ensures forall i :: 0 <= i < |rows| ==> r[i] == Sample(rows[i], t0)
  {
    if rows == [] then [] else [Sample(rows[0], t0)] + Prepare(rows[1..], t0)
  }

  /** `init` followed by `__init` on the query result `loaded`: an empty
      frame stays empty; otherwise the rows inside the window, rebased to
      the first sample, with the sentinel replaced. */
  function Load(w: Window, loaded: seq<IdleRow>): (r: seq<Row<IdleSample>>)
    ensures forall i :: 0 <= i < |r| ==> InWindow(w, r[i].index) && r[i].value.idle != EXIT_IDLE
    ensures |r| <= |loaded|
  {
    if loaded == [] then []
    else
      var df := Prepare(loaded, loaded[0].ts);
      FilterMembership(w, df);
      FilterTs(w, df)
  }

  /** The loaded frame holds exactly the window's samples, each carrying
      its CPU and its state with the sentinel replaced, in query order and
      each once; the first sample sits at time 0. */
  lemma LoadContents(w: Window, loaded: seq<IdleRow>)
    requires loaded != []
    ensures Sample(loaded[0], loaded[0].ts).index == 0.0
    ensures forall x :: x in Load(w, loaded) <==>
      exists i :: 0 <= i < |loaded| && InWindow(w, x.index) && x == Sample(loaded[i], loaded[0].ts)
    ensures |Load(w, loaded)| == |KeptFrom(w, Prepare(loaded, loaded[0].ts), 0)|
    ensures forall j :: 0 <= j < |Load(w, loaded)| ==>
      Load(w, loaded)[j] == Sample(loaded[KeptFrom(w, Prepare(loaded, loaded[0].ts), 0)[j]], loaded[0].ts)
  {
    var t0 := loaded[0].ts;
    var df := Prepare(loaded, t0);
    assert Load(w, loaded) == FilterTs(w, df);
    FilterIsSelection(w, df);
    var f, k := FilterTs(w, df), KeptFrom(w, df, 0);
    forall j | 0 <= j < |f| ensures f[j] == Sample(loaded[k[j]], t0) {
      assert f[j] == df[k[j]];
    }
    Utils.ToSecondsOrder(t0, t0, t0);
    FilterMembership(w, df);
    forall x | x in df
      ensures exists i :: 0 <= i < |loaded| && x == Sample(loaded[i], t0)
    {
      var i :| 0 <= i < |df| && df[i] == x;
    }
    forall i | 0 <= i < |loaded|
      ensures Sample(loaded[i], t0) in df
    {
      assert df[i] == Sample(loaded[i], t0);
    }
  }

  /** `num_rows`: `int((nr_cpus + 3) / 4)` in floating point, which is the
      number of 4-wide rows needed to hold every CPU. */
  function NumRows(nrCpus: nat): (r: int)
    ensures r == (nrCpus + 3) / 4
    ensures 4 * r >= nrCpus && (nrCpus > 0 ==> 4 * (r - 1) < nrCpus)
  {
    ((nrCpus + 3) as real / 4.0).Floor
  }

  /** The subplot placement of `plot_residency_matplotlib`: a column counter
      cycling 0..3 and a row counter advancing after every fourth CPU. The
      k-th CPU lands in cell k + 1 of the `num_rows` x 4 grid. */
  method SubplotIndices(nrCpus: nat) returns (idx: seq<int>)
    ensures |idx| == nrCpus
    ensures forall k :: 0 <= k < nrCpus ==> idx[k] == k + 1
    ensures forall k :: 0 <= k < nrCpus ==> 1 <= idx[k] <= 4 * NumRows(nrCpus)
  {
    idx := [];
    var col := 0;
    var rowPos := 1;
    for cpu := 0 to nrCpus
      invariant |idx| == cpu
      invariant col == cpu % 4 && rowPos == cpu / 4 + 1
      invariant forall k :: 0 <= k < cpu ==> idx[k] == k + 1
    {
      if col == 0 {
        idx := idx + [rowPos * 4 - 3];
        col := 1;
      } else if col == 1 {
        idx := idx + [rowPos * 4 - 2];
        col := 2;
      } else if col == 2 {
        idx := idx + [rowPos * 4 - 1];
        col := 3;
      } else {
        idx := idx + [rowPos * 4 - 0];
        col := 0;
        rowPos := rowPos + 1;
      }
    }
  }

  /** `df_idle[df_idle.cpu == cpu]`. */
  function CpuRows(frame: seq<Row<IdleSample>>, cpu: int): (r: seq<Row<IdleSample>>)
    ensures forall i :: 0 <= i < |r| ==> r[i].value.cpu == cpu
    ensures |r| <= |frame|
  {
    if frame == [] then []
    else (if frame[0].value.cpu == cpu then [frame[0]] else []) + CpuRows(frame[1..], cpu)
  }

  /** The reference selection: the positions, from `from` on and in
      increasing order, of exactly the rows of the frame that belong to
      `cpu`. */
  function CpuPositions(frame: seq<Row<IdleSample>>, cpu: int, from: nat): (idx: seq<nat>)
    requires from <= |frame|
    ensures forall j :: 0 <= j < |idx| ==> from <= idx[j] < |frame|
    ensures forall j, k :: 0 <= j < k < |idx| ==> idx[j] < idx[k]
    ensures forall i :: from <= i < |frame| ==> (i in idx <==> frame[i].value.cpu == cpu)
    decreases |frame| - from
  {
    if from == |frame| then []
    else (if frame[from].value.cpu == cpu then [from] else []) + CpuPositions(frame, cpu, from + 1)
  }

  /** The per-CPU selection is the frame's rows at those positions, in frame
      order: every row of the CPU, each once, and no other. */
  lemma CpuRowsIsSelection(frame: seq<Row<IdleSample>>, cpu: int)
    ensures |CpuRows(frame, cpu)| == |CpuPositions(frame, cpu, 0)|
    ensures forall j :: 0 <= j < |CpuRows(frame, cpu)| ==>
      CpuRows(frame, cpu)[j] == frame[CpuPositions(frame, cpu, 0)[j]]
  {
    CpuRowsSuffix(frame, cpu, 0);
  }

  lemma {:induction false} CpuRowsSuffix(frame: seq<Row<IdleSample>>, cpu: int, from: nat)
    requires from <= |frame|
    ensures |CpuRows(frame[from..], cpu)| == |CpuPositions(frame, cpu, from)|
    ensures forall j :: 0 <= j < |CpuRows(frame[from..], cpu)| ==>
      CpuRows(frame[from..], cpu)[j] == frame[CpuPositions(frame, cpu, from)[j]]
    decreases |frame| - from
  {
    if from < |frame| {
      CpuRowsSuffix(frame, cpu, from + 1);
      var tail, rest := frame[from..], frame[from + 1..];
      assert tail[0] == frame[from] && tail[1..] == rest;
      var keep := frame[from].value.cpu == cpu;
      assert CpuRows(tail, cpu) == (if keep then [frame[from]] else []) + CpuRows(rest, cpu);
      SelectionCons(frame, CpuRows(rest, cpu), CpuPositions(frame, cpu, from + 1), from, keep);
    }
  }

  /** `-1 * _ts.diff(periods=-1)` paired with the state: each sample lasts
      until the next one. The last sample's duration is NaN, which the sums
      skip, so it is 0 here. */
  function Intervals(rows: seq<Row<IdleSample>>): (items: seq<(int, real)>)
    ensures |items| == |rows|
    ensures forall i :: 0 <= i < |rows| ==> items[i].0 == rows[i].value.idle
    ensures forall i :: 0 <= i < |rows| - 1 ==> items[i].1 == rows[i + 1].index - rows[i].index
    ensures rows != [] ==> items[|rows| - 1].1 == 0.0
  {
    if rows == [] then []
    else if |rows| == 1 then [(rows[0].value.idle, 0.0)]
    else [(rows[0].value.idle, rows[1].index - rows[0].index)] + Intervals(rows[1..])
  }

  /** The durations telescope: a CPU's total is its last sample's time less
      its first. */
  lemma {:induction false} TotalTelescopes(rows: seq<Row<IdleSample>>)
    requires rows != []
    ensures Total(Intervals(rows)) == rows[|rows| - 1].index - rows[0].index
  {
    if |rows| > 1 {
      TotalTelescopes(rows[1..]);
      assert Intervals(rows)[1..] == Intervals(rows[1..]);
    }
  }

  /** `if not total_duration: total_duration = 1`. */
  function Divisor(total: real): (d: real)
    ensures d != 0.0
    ensures total != 0.0 ==> d == total
  {
    if total == 0.0 then 1.0 else total
  }

  /** Per-state residency of one CPU in percent, for the given states: the
      state's summed duration times 100 over the CPU's total (or over 1). */
  function Residency(rows: seq<Row<IdleSample>>, states: seq<int>): (pct: seq<real>)
    ensures |pct| == |states|
    ensures forall i :: 0 <= i < |states| ==>
      pct[i] == KeyedSum(Intervals(rows), states[i]) * 100.0 / Divisor(Total(Intervals(rows)))
  {
    var items := Intervals(rows);
    Shares(items, states, Divisor(Total(items)))
  }

  /** The states a CPU visited, each once: the groups of
      `groupby('idle')`. */
  function StatesOf(rows: seq<Row<IdleSample>>): (states: seq<int>)
    ensures Distinct(states)
    ensures forall i :: 0 <= i < |rows| ==> rows[i].value.idle in states
    ensures forall s :: s in states ==> exists i :: 0 <= i < |rows| && rows[i].value.idle == s
  {
    var items := Intervals(rows);
    assert forall i :: 0 <= i < |rows| ==> items[i].0 == rows[i].value.idle;
    KeysOf(items)
  }

  /** `plot_residency_matplotlib`: over the CPU's own states, a CPU with
      any elapsed time has residencies summing to exactly 100. */
  lemma ResidencySumsTo100(rows: seq<Row<IdleSample>>)
    requires rows != [] && rows[0].index != rows[|rows| - 1].index
    ensures Sum(Residency(rows, StatesOf(rows))) == 100.0
  {
    TotalTelescopes(rows);
    var items := Intervals(rows);
    SharesOfTotalSumTo100(items, StatesOf(rows));
  }

  /** `plot_residency_tui` divides over every state seen on any CPU; as long
      as that list is duplicate-free and holds this CPU's states, the
      residencies still sum to 100. */
  lemma TuiResidencySumsTo100(rows: seq<Row<IdleSample>>, states: seq<int>)
    requires rows != [] && rows[0].index != rows[|rows| - 1].index
    requires Distinct(states)
    requires forall i :: 0 <= i < |rows| ==> rows[i].value.idle in states
    ensures Sum(Residency(rows, states)) == 100.0
  {
    TotalTelescopes(rows);
    var items := Intervals(rows);
    SharesOfTotalSumTo100(items, states);
  }
}

=== FILE: kallsyms.dfy ===
/** The kernel symbol table: /proc/kallsyms read into a bounded static array
    (`parse_kallsyms`) and the address-to-name lookup over it (`find_kallsyms`),
    a bisection down to ranges of at most 100 slots followed by a linear scan
    for a pair of neighbouring slots whose addresses bracket the address. */
module Kallsyms {
  import opened Wrappers
  import opened CLib

  const MAX_NUM_SYMBOLS: nat := 500000
  const LINE_SIZE: nat := 256
  const SYMBOL_LEN: nat := 128
  /** Ranges no wider than this are scanned linearly instead of bisected. */
  const SCAN_WIDTH: nat := 100

  /** A 64-bit address; 0 is the NULL pointer. */
  type Addr = a: int | 0 <= a <= U64_MAX

  datatype Symbol = Symbol(address: Addr, name: seq<char>)

  /** The static `symbols` array together with the static `ready` flag. */
  datatype SymbolTable = SymbolTable(symbols: seq<Symbol>, ready: bool)

  /** Zero-initialised static storage, as it is before `parse_kallsyms` runs. */
  function InitialTable(): (t: SymbolTable)
    ensures |t.symbols| == MAX_NUM_SYMBOLS && !t.ready
    ensures forall k :: 0 <= k < MAX_NUM_SYMBOLS ==> t.symbols[k] == Symbol(0, [])
  {
    SymbolTable(seq(MAX_NUM_SYMBOLS, _ => Symbol(0, [])), false)
  }

  // ---------------------------------------------------------------------------
  // Storing a name

  /** The 128-byte name field after `strncpy(field, token, SYMBOL_LEN-1)` and
      `field[SYMBOL_LEN-1] = '0'` exactly as written: the last byte is the
      digit zero, not a terminator. */
  function NameFieldAsWritten(token: seq<char>): (field: seq<char>)
    requires NUL !in token
    ensures |field| == SYMBOL_LEN && field[SYMBOL_LEN - 1] == '0'
  {
    var n := Min(|token|, SYMBOL_LEN - 1);
    token[..n] + seq(SYMBOL_LEN - 1 - n, _ => NUL) + ['0']
  }

  /** A token of 127 characters or more fills the field with no NUL at all,
      so reading the stored name as a C string runs past the field. */
  lemma LongNameIsUnterminated(token: seq<char>)
    requires NUL !in token && |token| >= SYMBOL_LEN - 1
    ensures NUL !in NameFieldAsWritten(token)
  {
    var field := NameFieldAsWritten(token);
    assert field == token[..SYMBOL_LEN - 1] + ['0'];
  }

  /** A concrete instance: a 127-character symbol name. */
  lemma LongNameCounterexample()
    ensures NUL !in NameFieldAsWritten(seq(127, _ => 'a'))
  {
    LongNameIsUnterminated(seq(127, _ => 'a'));
  }

  /** The same copy with the terminator the code evidently intends, NUL. */
  function NameField(token: seq<char>): (field: seq<char>)
    requires NUL !in token
    ensures |field| == SYMBOL_LEN && field[SYMBOL_LEN - 1] == NUL
  {
    var n := Min(|token|, SYMBOL_LEN - 1);
    token[..n] + seq(SYMBOL_LEN - 1 - n, _ => NUL) + [NUL]
  }

  /** The name the table holds for a name token: the C string in the
      corrected field, which is the token cut to SYMBOL_LEN-1 characters. */
  function StoredName(token: seq<char>): (name: seq<char>)
    requires NUL !in token
    ensures name == token[..Min(|token|, SYMBOL_LEN - 1)]
  {
    var field := NameField(token);
    var n := Min(|token|, SYMBOL_LEN - 1);
    assert field[n] == NUL;
    assert forall i :: 0 <= i < n ==> field[i] == token[i];
    CStrOfTerminated(field, n);
    CStr(field)
  }

  lemma {:induction false} CStrOfTerminated(s: seq<char>, n: nat)
    requires n < |s| && s[n] == NUL && NUL !in s[..n]
    ensures CStr(s) == s[..n]
  {
    if n > 0 {
      assert s[0] in s[..n];
      assert s[1..][..n - 1] == s[..n][1..];
      CStrOfTerminated(s[1..], n - 1);
    }
  }

  /** On names shorter than 127 characters the written code and the
      corrected one store the same C string. */
  lemma ShortNamesAgree(token: seq<char>)
    requires NUL !in token && |token| < SYMBOL_LEN - 1
    ensures CStr(NameFieldAsWritten(token)) == token
  {
    var field := NameFieldAsWritten(token);
    assert field[..|token|] == token;
    CStrOfTerminated(field, |token|);
  }

  // ---------------------------------------------------------------------------
  // Parsing

  /** What one pass of the parse loop does with the line `fgets` returned. */
  datatype LineOutcome =
    | Entry(address: Addr, name: seq<char>)  // the slot is filled and the counter advances
    | Stop(written: Option<Addr>)            // the loop breaks; the slot's address may already be overwritten

  /** One line: the first token's text is converted by `strtoul(…, 16)`
      (which skips the spaces `strtok` skipped and stops at the NUL it wrote),
      the second token is the type, skipped, and the third is the name. The
      converted address is stored before any check, so a failed line leaves
      0 (no digits) or ULONG_MAX (out of range) or its address in the slot. */
  function ParseLine(line: seq<char>): (o: LineOutcome)
    ensures o.Entry? <==>
      |Tokens(CStr(line))| >= 3 && Strtoul(Tokens(CStr(line))[0], 16).Converted?
    ensures o.Entry? ==> Strtoul(Tokens(CStr(line))[0], 16) == Converted(o.address)
    ensures o.Entry? ==>
      NUL !in Tokens(CStr(line))[2] && o.name == StoredName(Tokens(CStr(line))[2]) &&
      |o.name| <= SYMBOL_LEN - 1
    ensures o.Stop? ==>
      if Tokens(CStr(line)) == [] then o.written.None?
      else o.written == Some(Returned(Strtoul(Tokens(CStr(line))[0], 16)))
  {
    var tokens := Tokens(CStr(line));
    if |tokens| == 0 then Stop(None)
    else
      match Strtoul(tokens[0], 16)
      case NoConversion => Stop(Some(0))
      case OutOfRange(v) => Stop(Some(v))
      case Converted(a) =>
        if |tokens| < 3 then Stop(Some(a))
        else
          TokensHaveNoNul(CStr(line), 2);
          Entry(a, StoredName(tokens[2]))
  }

  lemma {:induction false} TokensHaveNoNul(s: seq<char>, i: nat)
    requires NUL !in s && i < |Tokens(s)|
    ensures NUL !in Tokens(s)[i]
  {
    if s[0] == ' ' {
      assert NUL !in s[1..] by { assert forall c :: c in s[1..] ==> c in s; }
      TokensHaveNoNul(s[1..], i);
    } else {
      var n := TokenLen(s);
      assert Tokens(s) == [s[..n]] + Tokens(s[n..]);
      if i == 0 {
        assert forall c :: c in s[..n] ==> c in s;
      } else {
        assert NUL !in s[n..] by { assert forall c :: c in s[n..] ==> c in s; }
        TokensHaveNoNul(s[n..], i - 1);
      }
    }
  }

  /** The first line `fgets` reads from /proc/sys/kernel/kptr_restrict,
      converted by `strtol(…, 0)` and stored in an `int`, is 2 or more:
      addresses are hidden and kallsyms is not read. A file that cannot be
      opened or is empty does not stop the parse. */
  function KptrRestricted(kptrRestrict: Option<seq<char>>): (restricted: bool)
    ensures kptrRestrict.None? || kptrRestrict == Some([]) ==> !restricted
    ensures kptrRestrict.Some? && kptrRestrict.value != [] ==>
      var buf := kptrRestrict.value[..FgetsLen(kptrRestrict.value, LINE_SIZE)];
      && (Strtol(buf, 0).NoConversion? ==> !restricted)
      && (Strtol(buf, 0).OutOfRange? ==> !restricted)
      && (Strtol(buf, 0).Converted? && -0x8000_0000 <= Strtol(buf, 0).value < 0x8000_0000 ==>
            (restricted <==> Strtol(buf, 0).value >= 2))
  {
    SaturatedInt32();
    && kptrRestrict.Some?
    && kptrRestrict.value != []
    && ToInt32(Returned(Strtol(FgetsLines(kptrRestrict.value, LINE_SIZE)[0], 0))) >= 2
  }

  /** A saturated `strtol` result stored in an `int` keeps only its low 32
      bits: LONG_MAX becomes -1 and LONG_MIN becomes 0. */
  lemma SaturatedInt32()
    ensures ToInt32(LONG_MAX) == -1 && ToInt32(LONG_MIN) == 0
  {
    assert (LONG_MAX + 0x8000_0000) % 0x1_0000_0000 == 0x7FFF_FFFF;
    assert (LONG_MIN + 0x8000_0000) % 0x1_0000_0000 == 0x8000_0000;
  }

  /** The gate on concrete file contents: "2" hides addresses and stops the
      parse, "1" does not, and neither does an unreadable file. */
  lemma KptrGateExamples()
    ensures KptrRestricted(Some("2\n"))
    ensures !KptrRestricted(Some("1\n"))
    ensures !KptrRestricted(None)
  {
    StrtolOfDigitLine("2\n");
    StrtolOfDigitLine("1\n");
  }

  /** A one-digit line converts to that digit. */
  lemma StrtolOfDigitLine(line: seq<char>)
    requires |line| == 2 && '1' <= line[0] <= '9' && line[1] == '\n'
    ensures FgetsLines(line, LINE_SIZE)[0] == line
    ensures Strtol(line, 0) == Converted(line[0] as int - '0' as int)
  {
    assert FgetsLen(line, LINE_SIZE) == 2;
    assert line[..2] == line;
    assert SkipSpace(line) == line;
    assert DigitRunLen(line, 10) == 1 by {
      assert DigitRunLen(line[1..], 10) == 0;
    }
    assert line[..1] == [line[0]];
    assert DigitsValue([line[0]], 10) == line[0] as int - '0' as int by {
      assert [line[0]][..0] == [];
    }
  }

  /** The outcome of every line the file yields, in order. */
  function ParseLines(lines: seq<seq<char>>): (os: seq<LineOutcome>)
    ensures |os| == |lines|
  {
    if lines == [] then [] else [ParseLine(lines[0])] + ParseLines(lines[1..])
  }

  /** The parse loop over line outcomes: slot i takes the i-th entry until a
      line fails or MAX_NUM_SYMBOLS entries are stored; `count` is the
      final value of the counter `i`. */
  method StoreEntries(symbols0: seq<Symbol>, outcomes: seq<LineOutcome>) returns (symbols: seq<Symbol>, count: nat)
    requires |symbols0| == MAX_NUM_SYMBOLS
    ensures |symbols| == MAX_NUM_SYMBOLS && count <= MAX_NUM_SYMBOLS && count <= |outcomes|
    ensures forall k :: 0 <= k < count ==>
      outcomes[k].Entry? && symbols[k] == Symbol(outcomes[k].address, outcomes[k].name)
    ensures count == MAX_NUM_SYMBOLS || count == |outcomes| || outcomes[count].Stop?
    ensures forall k :: count < k < MAX_NUM_SYMBOLS ==> symbols[k] == symbols0[k]
    ensures count < MAX_NUM_SYMBOLS ==>
      symbols[count] ==
        if count < |outcomes| && outcomes[count].written.Some?
        then symbols0[count].(address := outcomes[count].written.value)
        else symbols0[count]
  {
    symbols := symbols0;
    var i := 0;
    while i < |outcomes| && i < MAX_NUM_SYMBOLS
      invariant i <= |outcomes| && i <= MAX_NUM_SYMBOLS && |symbols| == MAX_NUM_SYMBOLS
      invariant forall k :: 0 <= k < i ==>
        outcomes[k].Entry? && symbols[k] == Symbol(outcomes[k].address, outcomes[k].name)
      invariant forall k :: i <= k < MAX_NUM_SYMBOLS ==> symbols[k] == symbols0[k]
    {
      var outcome := outcomes[i];
      if outcome.Stop? {
        if outcome.written.Some? {
          symbols := symbols[i := symbols[i].(address := outcome.written.value)];
        }
        return symbols, i;
      }
      symbols := symbols[i := Symbol(outcome.address, outcome.name)];
      i := i + 1;
    }
    count := i;
  }

  /** `parse_kallsyms`, given the contents of the two files it opens (None
      when `fopen` fails). Lines are stored in order until one fails to parse
      or MAX_NUM_SYMBOLS are stored; the table is then marked ready. The
      closing `qsort` is not part of this model: the table is returned as the
      loop leaves it. */
  method ParseKallsyms(t: SymbolTable, kptrRestrict: Option<seq<char>>, kallsyms: Option<seq<char>>)
    returns (r: SymbolTable, count: nat)
    requires |t.symbols| == MAX_NUM_SYMBOLS
    ensures |r.symbols| == MAX_NUM_SYMBOLS && count <= MAX_NUM_SYMBOLS
    ensures KptrRestricted(kptrRestrict) || kallsyms.None? ==> r == t && count == 0
    ensures !KptrRestricted(kptrRestrict) && kallsyms.Some? ==>
      var outcomes := ParseLines(FgetsLines(kallsyms.value, LINE_SIZE));
      && r.ready
      && count <= |outcomes|
      && (forall k :: 0 <= k < count ==>
            outcomes[k].Entry? && r.symbols[k] == Symbol(outcomes[k].address, outcomes[k].name))
      && (count == MAX_NUM_SYMBOLS || count == |outcomes| || outcomes[count].Stop?)
      && (forall k :: count < k < MAX_NUM_SYMBOLS ==> r.symbols[k] == t.symbols[k])
      && (count < MAX_NUM_SYMBOLS ==>
            r.symbols[count] ==
              if count < |outcomes| && outcomes[count].written.Some?
              then t.symbols[count].(address := outcomes[count].written.value)
              else t.symbols[count])
  {
    if KptrRestricted(kptrRestrict) {
      return t, 0;
    }
    if kallsyms.None? {
      return t, 0;
    }
    var outcomes := ParseLines(FgetsLines(kallsyms.value, LINE_SIZE));
    var symbols;
    symbols, count := StoreEntries(t.symbols, outcomes);
    r := SymbolTable(symbols, true);
  }

  /** A line in the kernel's own format: the address as 16 hexadecimal
      digits, a space, the type letter, a space, the name and the newline. */
  function FormatLine(a: Addr, kind: char, name: seq<char>): seq<char>
  {
    Pow16Is2To64();
    PaddedHex(a, 16) + [' ', kind, ' '] + name + ['\n']
  }

  lemma Pow16Is2To64()
    ensures Pow16(16) == U64_MAX + 1
  {
    assert Pow16(4) == 0x1_0000;
    assert Pow16(8) == 0x1_0000_0000;
    assert Pow16(12) == 0x1_0000_0000_0000;
  }

  /** Parsing a line in the kernel's format gives back its address, and as
      name the third token, which keeps the newline because `strtok` splits
      at spaces only. */
  lemma ParseFormattedLine(a: Addr, kind: char, name: seq<char>)
    requires kind != ' ' && kind != NUL
    requires name != [] && ' ' !in name && NUL !in name
    ensures ParseLine(FormatLine(a, kind, name)) == Entry(a, StoredName(name + ['\n']))
  {
    TokensOfFormattedLine(a, kind, name);
    StrtoulOfAddressToken(a);
  }

  lemma TokensOfFormattedLine(a: Addr, kind: char, name: seq<char>)
    requires kind != ' ' && kind != NUL
    requires name != [] && ' ' !in name && NUL !in name
    ensures Pow16(16) == U64_MAX + 1
    ensures Tokens(CStr(FormatLine(a, kind, name))) == [PaddedHex(a, 16), [kind], name + ['\n']]
  {
    Pow16Is2To64();
    var hex := PaddedHex(a, 16);
    var nl := name + ['\n'];
    var line := FormatLine(a, kind, name);
    HexHasNoSpaceOrNul(hex);
    FormatLineShape(hex, kind, name);
    CStrWithoutNul(line);
    TokensStep(hex, [' '] + ([kind] + ([' '] + nl)));
    TokensAfterAddress(kind, nl);
  }

  /** The line is the address, a space, the type letter, a space, then the
      name and its newline; it holds no NUL. */
  lemma FormatLineShape(hex: seq<char>, kind: char, name: seq<char>)
    requires NUL !in hex && kind != NUL && NUL !in name
    ensures var line := hex + [' ', kind, ' '] + name + ['\n'];
      line == hex + ([' '] + ([kind] + ([' '] + (name + ['\n'])))) && NUL !in line
  {
  }

  /** What follows the address splits into the type letter and the name. */
  lemma TokensAfterAddress(kind: char, nl: seq<char>)
    requires kind != ' '
    requires nl != [] && ' ' !in nl
    ensures Tokens([' '] + ([kind] + ([' '] + nl))) == [[kind], nl]
  {
    assert Tokens([' '] + ([kind] + ([' '] + nl))) == Tokens([kind] + ([' '] + nl));
    TokensStep([kind], [' '] + nl);
    assert Tokens([' '] + nl) == Tokens(nl);
    TokensStep(nl, []);
    assert nl + [] == nl;
  }

  lemma HexHasNoSpaceOrNul(hex: seq<char>)
    requires AllDigits(hex, 16)
    ensures NUL !in hex && ' ' !in hex
  {
    forall i | 0 <= i < |hex| ensures hex[i] != NUL && hex[i] != ' ' {
      assert DigitIn(hex[i], 16).Some?;
    }
  }

  lemma StrtoulOfAddressToken(a: Addr)
    ensures Pow16(16) == U64_MAX + 1
    ensures Strtoul(PaddedHex(a, 16), 16) == Converted(a)
  {
    Pow16Is2To64();
    var hex := PaddedHex(a, 16);
    ScanPaddedHex(a, 16, [' ']);
    StrtoulIgnoresAfterSpace(hex);
  }

  lemma {:induction false} CStrWithoutNul(s: seq<char>)
    requires NUL !in s
    ensures CStr(s) == s
  {
    if s != [] {
      assert NUL !in s[1..] by { assert forall c :: c in s[1..] ==> c in s; }
      CStrWithoutNul(s[1..]);
    }
  }

  /** A token followed by nothing or by a space is split off whole. */
  lemma TokensStep(tok: seq<char>, rest: seq<char>)
    requires tok != [] && ' ' !in tok
    requires rest == [] || rest[0] == ' '
    ensures Tokens(tok + rest) == [tok] + Tokens(rest)
  {
    var s := tok + rest;
    assert s[0] == tok[0] && tok[0] in tok;
    TokenLenOf(tok, rest);
    assert s[..|tok|] == tok && s[|tok|..] == rest;
  }

  lemma {:induction false} TokenLenOf(tok: seq<char>, rest: seq<char>)
    requires ' ' !in tok
    requires rest == [] || rest[0] == ' '
    ensures TokenLen(tok + rest) == |tok|
  {
    if tok != [] {
      assert (tok + rest)[1..] == tok[1..] + rest;
      assert ' ' !in tok[1..] by { assert forall c :: c in tok[1..] ==> c in tok; }
      TokenLenOf(tok[1..], rest);
    } else {
      assert tok + rest == rest;
    }
  }

  /** A 16-digit address token converts as it does followed by a space. */
  lemma StrtoulIgnoresAfterSpace(hex: seq<char>)
    requires |hex| == 16 && AllDigits(hex, 16)
    requires ScanInteger(hex + [' '], 16).Number?
    ensures ScanInteger(hex, 16) == ScanInteger(hex + [' '], 16)
  {
    var s := hex + [' '];
    assert s[..16] == hex && s[0] == hex[0] && s[1] == hex[1];
    assert DigitIn(hex[0], 16).Some? && DigitIn(hex[1], 16).Some?;
    assert SkipSpace(s) == s && SkipSpace(hex) == hex;
    DigitRunIsExact(hex, [' ']);
    assert hex[..16] == hex;
  }

  // ---------------------------------------------------------------------------
  // The sort comparator

  /** `cmp` as written: the byte difference of the two addresses, returned
      as an `int` and so reduced modulo 2^32 into [-2^31, 2^31). */
  function CmpAsWritten(x: Addr, y: Addr): (c: int)
    ensures -0x8000_0000 <= c < 0x8000_0000
    ensures (c - (x - y)) % 0x1_0000_0000 == 0
  {
    ToInt32(x - y)
  }

  /** The truncation breaks the order: an unfilled slot (address 0) compares
      above a kernel text address, and so does any address whose low 32
      bits, less the other's, reach 2^31. */
  lemma CmpAsWrittenMisorders()
    ensures CmpAsWritten(0, 0xffff_ffff_8100_0000) > 0
    ensures CmpAsWritten(0xffff_ffff_8100_0000, 0x1000) < 0
  {
  }

  /** The comparator the sort needs: the sign of the address difference. */
  function Cmp(x: Addr, y: Addr): (c: int)
    ensures c < 0 <==> x < y
    ensures c == 0 <==> x == y
    ensures c > 0 <==> x > y
  {
    if x < y then -1 else if x > y then 1 else 0
  }

  // ---------------------------------------------------------------------------
  // Lookup

  /** Slots k and k+1 exist and their addresses bracket `a`. */
  predicate Brackets(symbols: seq<Symbol>, k: int, a: Addr)
  {
    0 <= k && k + 1 < |symbols| && symbols[k].address <= a <= symbols[k + 1].address
  }

  /** Addresses never decrease along the table. */
  predicate Sorted(symbols: seq<Symbol>)
  {
    forall i, j :: 0 <= i <= j < |symbols| ==> symbols[i].address <= symbols[j].address
  }

  /** A table is sorted exactly when `Cmp` puts no pair out of order, so
      a sort with the corrected comparator establishes what the lookup
      assumes. */
  lemma SortedMeansCmpOrdered(symbols: seq<Symbol>)
    ensures Sorted(symbols) <==>
      forall i, j :: 0 <= i <= j < |symbols| ==> Cmp(symbols[i].address, symbols[j].address) <= 0
  {
  }

  /** If the ends of a range bracket `a`, some neighbouring pair inside it
      does: the linear scan cannot come back empty-handed. */
  lemma {:induction false} BracketExists(symbols: seq<Symbol>, start: nat, end: nat, a: Addr)
    requires start < end < |symbols|
    requires symbols[start].address <= a <= symbols[end].address
    ensures exists k :: start <= k < end && Brackets(symbols, k, a)
    decreases end - start
  {
    if a > symbols[start + 1].address {
      BracketExists(symbols, start + 1, end, a);
    } else {
      assert Brackets(symbols, start, a);
    }
  }

  /** `____find_kallsyms`: the first slot k in [start, end-1] whose address
      and its successor's bracket `a`, or none. `end` is at least 1, so the
      unsigned `end-1` never wraps, and every index read is below
      MAX_NUM_SYMBOLS. */
  method Scan(symbols: seq<Symbol>, start: nat, end: nat, a: Addr) returns (r: Option<nat>)
    requires |symbols| == MAX_NUM_SYMBOLS
    requires 1 <= end < MAX_NUM_SYMBOLS
    ensures r.Some? ==> start <= r.value < end && Brackets(symbols, r.value, a)
    ensures r.Some? ==> forall j :: start <= j < r.value ==> !Brackets(symbols, j, a)
    ensures r.None? ==> forall k :: start <= k < end ==> !Brackets(symbols, k, a)
  {
    var k := start;
    while k <= end - 1
      invariant start <= k && (k == start || k <= end)
      invariant forall j :: start <= j < k ==> !Brackets(symbols, j, a)
      decreases end - k
    {
      if symbols[k].address <= a && symbols[k + 1].address >= a {
        return Some(k);
      }
      k := k + 1;
    }
    return None;
  }

  /** `__find_kallsyms`: bisection while the range is wider than 100 slots,
      the linear scan after. An exact hit on the pivot returns the pivot. The
      bisection keeps `a` bracketed by the range's ends, so a bracketed
      address is always found; on a sorted table every answer brackets `a`. */
  method Bisect(symbols: seq<Symbol>, start: nat, pivot: nat, end: nat, a: Addr) returns (r: Option<nat>)
    requires |symbols| == MAX_NUM_SYMBOLS
    requires start <= pivot <= end < MAX_NUM_SYMBOLS && 1 <= end
    requires end - start > SCAN_WIDTH ==> start < pivot < end
    decreases end - start
    ensures r.Some? ==> start <= r.value < end
    ensures r.Some? ==> symbols[r.value].address == a || Brackets(symbols, r.value, a)
    ensures start < end && symbols[start].address <= a <= symbols[end].address ==> r.Some?
    ensures Sorted(symbols) && r.Some? ==> Brackets(symbols, r.value, a)
    ensures Sorted(symbols) && r.Some? ==> symbols[start].address <= a <= symbols[end].address
    ensures end - start > SCAN_WIDTH && symbols[pivot].address == a ==> r == Some(pivot)
  {
    if end - start <= SCAN_WIDTH {
      r := Scan(symbols, start, end, a);
      if start < end && symbols[start].address <= a <= symbols[end].address {
        BracketExists(symbols, start, end, a);
      }
      return;
    }
    if a == symbols[pivot].address {
      return Some(pivot);
    }
    if a > symbols[pivot].address {
      r := Bisect(symbols, pivot, pivot + (end - pivot) / 2, end, a);
    } else {
      // a < symbols[pivot].address: on a total order the source's final
      // "unexpected path" is unreachable
      r := Bisect(symbols, start, start + (pivot - start) / 2, pivot, a);
    }
  }

  /** `find_kallsyms`: NULL for a NULL address or before the table is ready;
      otherwise a bisection over the whole table. Any address between the
      first and the last slot's is found; on a sorted table exactly those are,
      and the name returned is that of a slot which, with its successor,
      brackets the address. */
  method FindKallsyms(t: SymbolTable, a: Addr) returns (r: Option<seq<char>>)
    requires |t.symbols| == MAX_NUM_SYMBOLS
    ensures a == 0 || !t.ready ==> r == None
    ensures r.Some? ==>
      exists k :: 0 <= k < MAX_NUM_SYMBOLS && t.symbols[k].name == r.value &&
                  (t.symbols[k].address == a || Brackets(t.symbols, k, a))
    ensures a != 0 && t.ready && t.symbols[0].address <= a <= t.symbols[MAX_NUM_SYMBOLS - 1].address ==> r.Some?
    ensures Sorted(t.symbols) && a != 0 && t.ready ==>
      (r.Some? <==> t.symbols[0].address <= a <= t.symbols[MAX_NUM_SYMBOLS - 1].address)
    ensures Sorted(t.symbols) && r.Some? ==>
      exists k :: Brackets(t.symbols, k, a) && t.symbols[k].name == r.value
  {
    if a == 0 || !t.ready {
      return None;
    }
    var k := Bisect(t.symbols, 0, MAX_NUM_SYMBOLS / 2, MAX_NUM_SYMBOLS - 1, a);
    if k.Some? {
      r := Some(t.symbols[k.value].name);
    } else {
      r := None;
    }
  }
}

=== FILE: parse_argp.dfy ===
/** The command-line option record `struct sa_opts` and the argp callback
    `parse_arg` that selects the output mode: Perfetto events (the default)
    or CSV files. The two mode flags are kept mutually exclusive and the
    last mode option on the command line wins. */
module ParseArgp {
  import opened Wrappers

  /** `struct sa_opts`, its fields grouped as the header's comments group
      them. Pointers are Option (None is NULL). */
  datatype SaOpts = SaOpts(
    perfetto: bool,               // modes
    csv: bool,
    perfettoOpts: PerfettoOpts,
    controls: Controls,
    events: Events)

  datatype PerfettoOpts = PerfettoOpts(system: bool, app: bool)

  datatype Controls = Controls(output: Option<string>, outputPath: Option<string>, maxSize: int)

  datatype Events = Events(
    utilAvgCpu: bool,
    utilAvgTask: bool,
    utilAvgIrq: bool,
    utilAvgRt: bool,
    utilAvgDl: bool,
    utilEstCpu: bool,
    utilEstTask: bool,
    utilEstIrq: bool,
    utilEstRt: bool,
    utilEstDl: bool,
    cpuNrRunning: bool,
    cpuFreq: bool,
    cpuIdle: bool,
    softirq: bool,
    schedSwitch: bool)

  /** The static initialiser: Perfetto mode; every other field zero. */
  const DEFAULT_OPTS: SaOpts := SaOpts(
    true, false,
    PerfettoOpts(false, false),
    Controls(None, None, 0),
    Events(false, false, false, false, false, false, false, false, false, false,
           false, false, false, false, false))

  /** argp keys: the two short options, and glibc's special keys. */
  const KEY_PERFETTO: int := 'p' as int
  const KEY_CSV: int := 'c' as int
  const ARGP_KEY_ARG: int := 0
  const ARGP_KEY_END: int := 0x1000001
  /** `ARGP_ERR_UNKNOWN` is `E2BIG` on Linux. */
  const ARGP_ERR_UNKNOWN: int := 7

  datatype Mode = Perfetto | Csv

  /** The mode the two flags name, if exactly one of them is set. */
  function ModeOf(opts: SaOpts): Option<Mode>
  {
    if opts.perfetto && !opts.csv then Some(Perfetto)
    else if opts.csv && !opts.perfetto then Some(Csv)
    else None
  }

  /** The mode a key selects, if it is a mode option. */
  function KeyMode(key: int): Option<Mode>
  {
    if key == KEY_PERFETTO then Some(Perfetto)
    else if key == KEY_CSV then Some(Csv)
    else None
  }

  /** Two records that agree on everything but the mode flags. */
  predicate SameButMode(a: SaOpts, b: SaOpts)
  {
    a.perfettoOpts == b.perfettoOpts && a.controls == b.controls && a.events == b.events
  }

  /** The callback either returns a status with the (possibly updated)
      options, or calls `argp_usage`, which prints usage and exits. */
  datatype ParseOutcome = Returned(opts: SaOpts, status: int) | UsageExit

  /** `parse_arg(key, arg, state)`: a mode option sets its mode and clears
      the other; a positional argument is a usage error; `ARGP_KEY_END` and
      every other key leave the options alone, the others answering
      `ARGP_ERR_UNKNOWN` so that argp applies its default. */
  function ParseArg(key: int, opts: SaOpts): (r: ParseOutcome)
    ensures r.UsageExit? <==> key == ARGP_KEY_ARG
    ensures r.Returned? ==> SameButMode(opts, r.opts)
    ensures r.Returned? && KeyMode(key).Some? ==> ModeOf(r.opts) == KeyMode(key) && r.status == 0
    ensures r.Returned? && KeyMode(key).None? ==> r.opts == opts
    ensures r.Returned? ==> (r.status == ARGP_ERR_UNKNOWN <==> KeyMode(key).None? && key != ARGP_KEY_END)
    ensures r.Returned? ==> (r.status == 0 || r.status == ARGP_ERR_UNKNOWN)
  {
    if key == KEY_PERFETTO then Returned(opts.(perfetto := true, csv := false), 0)
    else if key == KEY_CSV then Returned(opts.(perfetto := false, csv := true), 0)
    else if key == ARGP_KEY_ARG then UsageExit
    else if key == ARGP_KEY_END then Returned(opts, 0)
    else Returned(opts, ARGP_ERR_UNKNOWN)
  }

  /** The callback applied to each key argp hands it, in order, until a
      usage error ends the program. */
  function ParseArgs(keys: seq<int>, opts: SaOpts): (r: ParseOutcome)
  {
    if keys == [] then Returned(opts, 0)
    else
      match ParseArg(keys[0], opts)
      case UsageExit => UsageExit
      case Returned(next, _) => ParseArgs(keys[1..], next)
  }

  /** The mode named by the last mode option among `keys`, if any. */
  function LastMode(keys: seq<int>): Option<Mode>
  {
    if keys == [] then None
    else if KeyMode(keys[|keys| - 1]).Some? then KeyMode(keys[|keys| - 1])
    else LastMode(keys[..|keys| - 1])
  }

  lemma {:induction false} LastModeCons(k: int, keys: seq<int>)
    ensures LastMode([k] + keys) == if LastMode(keys).Some? then LastMode(keys) else KeyMode(k)
    decreases |keys|
  {
    var s := [k] + keys;
    if keys != [] {
      assert s[|s| - 1] == keys[|keys| - 1];
      assert s[..|s| - 1] == [k] + keys[..|keys| - 1];
      LastModeCons(k, keys[..|keys| - 1]);
    } else {
      assert s[..|s| - 1] == [];
    }
  }

  /** The initial options name exactly one mode, Perfetto. */
  lemma DefaultIsPerfetto()
    ensures ModeOf(DEFAULT_OPTS) == Some(Perfetto)
  {
  }

  /** Whatever keys argp passes without a usage error, the result names the
      mode of the last mode option, or keeps the starting mode when there is
      none; nothing but the mode flags ever changes. */
  lemma {:induction false} LastModeWins(keys: seq<int>, opts: SaOpts)
    requires ParseArgs(keys, opts).Returned?
    ensures SameButMode(opts, ParseArgs(keys, opts).opts)
    ensures ModeOf(ParseArgs(keys, opts).opts) ==
      if LastMode(keys).Some? then LastMode(keys) else ModeOf(opts)
  {
    if keys != [] {
      var next := ParseArg(keys[0], opts).opts;
      LastModeWins(keys[1..], next);
      LastModeCons(keys[0], keys[1..]);
      assert [keys[0]] + keys[1..] == keys;
    }
  }

  /** From the default options, exactly one of perfetto/csv is set after any
      sequence of keys that does not end in a usage error. */
  lemma ExactlyOneMode(keys: seq<int>)
    requires ParseArgs(keys, DEFAULT_OPTS).Returned?
    ensures ParseArgs(keys, DEFAULT_OPTS).opts.perfetto != ParseArgs(keys, DEFAULT_OPTS).opts.csv
  {
    LastModeWins(keys, DEFAULT_OPTS);
  }

  /** A positional argument anywhere on the command line is a usage error. */
  lemma {:induction false} PositionalIsUsageError(keys: seq<int>, opts: SaOpts)
    requires ARGP_KEY_ARG in keys
    ensures ParseArgs(keys, opts).UsageExit?
  {
    if keys[0] != ARGP_KEY_ARG {
      PositionalIsUsageError(keys[1..], ParseArg(keys[0], opts).opts);
    }
  }
}

=== FILE: settings.dfy ===
/** The user's time window and `filter_ts`, which keeps the rows of a frame
    whose index lies in the closed window [tsStart, tsEnd]. The module-level
    globals of the program are passed here as an explicit `Window` value. */
module Settings {
  import opened Wrappers

  /** One row of a pandas frame: its index label and the rest of the row. */
  datatype Row<V> = Row(index: real, value: V)

  datatype Window = Window(tsStart: real, tsEnd: real)

  predicate InWindow(w: Window, x: real)
  {
    w.tsStart <= x <= w.tsEnd
  }

  /** `init`: the window starts at 0 and ends at 2^64 - 1, so it admits
      exactly the indices an unsigned 64-bit timestamp can take. */
  function Init(): (w: Window)
    ensures forall x :: InWindow(w, x) <==> 0.0 <= x <= U64_MAX as real
  {
    Window(0.0, U64_MAX as real)
  }

  /** `set_ts_start`: the new start applies; the end is left as it was. */
  function SetTsStart(w: Window, ts: real): (r: Window)
    ensures forall x :: InWindow(r, x) <==> ts <= x && x <= w.tsEnd
    ensures r.tsEnd == w.tsEnd
  {
    w.(tsStart := ts)
  }

  /** `set_ts_end`: the new end applies; the start is left as it was. */
  function SetTsEnd(w: Window, ts: real): (r: Window)
    ensures forall x :: InWindow(r, x) <==> w.tsStart <= x && x <= ts
    ensures r.tsStart == w.tsStart
  {
    w.(tsEnd := ts)
  }

  /** `filter_ts`: the boolean-mask selection of the rows in the window. */
  function FilterTs<V>(w: Window, df: seq<Row<V>>): (r: seq<Row<V>>)
    ensures |r| <= |df|
    ensures forall i :: 0 <= i < |r| ==> InWindow(w, r[i].index)
  {
    if df == [] then []
    else (if InWindow(w, df[0].index) then [df[0]] else []) + FilterTs(w, df[1..])
  }

  /** `filter_ts` keeps exactly the rows whose index lies in the window. */
  lemma {:induction false} FilterMembership<V>(w: Window, df: seq<Row<V>>)
    ensures forall x :: x in FilterTs(w, df) <==> x in df && InWindow(w, x.index)
  {
    if df != [] {
      FilterMembership(w, df[1..]);
      assert df == [df[0]] + df[1..];
    }
  }

  /** The reference selection: the positions i0 < i1 < ... of the rows of
      `df` from position `from` on whose index lies in the window. */
  function KeptFrom<V>(w: Window, df: seq<Row<V>>, from: nat): (idx: seq<nat>)
    requires from <= |df|
    ensures forall j :: 0 <= j < |idx| ==> from <= idx[j] < |df|
    ensures forall j, k :: 0 <= j < k < |idx| ==> idx[j] < idx[k]
    ensures forall i :: from <= i < |df| ==> (i in idx <==> InWindow(w, df[i].index))
    decreases |df| - from
  {
    if from == |df| then []
    else (if InWindow(w, df[from].index) then [from] else []) + KeptFrom(w, df, from + 1)
  }

  /** `filter_ts` keeps exactly the rows at the reference positions, in
      their original order: its result is the subsequence of `df` picked
      out by the window. */
  lemma FilterIsSelection<V>(w: Window, df: seq<Row<V>>)
    ensures |FilterTs(w, df)| == |KeptFrom(w, df, 0)|
    ensures forall j :: 0 <= j < |FilterTs(w, df)| ==> FilterTs(w, df)[j] == df[KeptFrom(w, df, 0)[j]]
  {
    FilterSuffix(w, df, 0);
  }

  /** Putting the row at `from` (or nothing) in front of a selection of
      `df` gives a selection of `df` again. */
  lemma SelectionCons<T>(df: seq<T>, f: seq<T>, k: seq<nat>, from: nat, keep: bool)
    requires from < |df|
    requires |f| == |k| && forall j :: 0 <= j < |k| ==> k[j] < |df| && f[j] == df[k[j]]
    ensures var f2, k2 := (if keep then [df[from]] else []) + f, (if keep then [from] else []) + k;
      |f2| == |k2| && forall j :: 0 <= j < |k2| ==> k2[j] < |df| && f2[j] == df[k2[j]]
  {
  }

  lemma {:induction false} FilterSuffix<V>(w: Window, df: seq<Row<V>>, from: nat)
    requires from <= |df|
    ensures |FilterTs(w, df[from..])| == |KeptFrom(w, df, from)|
    ensures forall j :: 0 <= j < |FilterTs(w, df[from..])| ==>
      FilterTs(w, df[from..])[j] == df[KeptFrom(w, df, from)[j]]
    decreases |df| - from
  {
    if from < |df| {
      FilterSuffix(w, df, from + 1);
      var tail, rest := df[from..], df[from + 1..];
      assert tail[0] == df[from] && tail[1..] == rest;
      var keep := InWindow(w, df[from].index);
      assert FilterTs(w, tail) == (if keep then [df[from]] else []) + FilterTs(w, rest);
      SelectionCons(df, FilterTs(w, rest), KeptFrom(w, df, from + 1), from, keep);
    }
  }

  /** Filtering twice is filtering once. */
  lemma {:induction false} FilterIdempotent<V>(w: Window, df: seq<Row<V>>)
    ensures FilterTs(w, FilterTs(w, df)) == FilterTs(w, df)
  {
    if df != [] {
      FilterIdempotent(w, df[1..]);
      if InWindow(w, df[0].index) {
        var r := FilterTs(w, df);
        assert r == [df[0]] + FilterTs(w, df[1..]);
        assert r[0] == df[0] && r[1..] == FilterTs(w, df[1..]);
      } else {
        assert FilterTs(w, df) == FilterTs(w, df[1..]);
      }
    }
  }

  /** A window whose start lies after its end admits nothing. */
  lemma {:induction false} EmptyWindow<V>(w: Window, df: seq<Row<V>>)
    requires w.tsStart > w.tsEnd
    ensures FilterTs(w, df) == []
  {
    if df != [] {
      EmptyWindow(w, df[1..]);
    }
  }

  predicate StrictlyAscending<V>(df: seq<Row<V>>)
  {
    forall i, j :: 0 <= i < j < |df| ==> df[i].index < df[j].index
  }

  /** Being a subsequence, the filtered frame keeps an ascending index
      ascending. */
  lemma FilterKeepsAscending<V>(w: Window, df: seq<Row<V>>)
    requires StrictlyAscending(df)
    ensures StrictlyAscending(FilterTs(w, df))
  {
    FilterIsSelection(w, df);
  }

  /** Raising the start of the window only drops rows: the new result is
      the old result filtered again, so a subsequence of it, and holds no
      row the old one lacks. */
  lemma RaisingStartNarrows<V>(w: Window, ts: real, df: seq<Row<V>>)
    requires ts >= w.tsStart
    ensures FilterTs(SetTsStart(w, ts), df) == FilterTs(SetTsStart(w, ts), FilterTs(w, df))
    ensures forall x :: x in FilterTs(SetTsStart(w, ts), df) ==> x in FilterTs(w, df)
    ensures |FilterTs(SetTsStart(w, ts), df)| <= |FilterTs(w, df)|
  {
    NarrowerRefilters(w, SetTsStart(w, ts), df);
    FilterMembership(SetTsStart(w, ts), FilterTs(w, df));
  }

  /** Filtering with a window inside another equals filtering with the
      outer window first. */
  lemma {:induction false} NarrowerRefilters<V>(outer: Window, inner: Window, df: seq<Row<V>>)
    requires outer.tsStart <= inner.tsStart && inner.tsEnd <= outer.tsEnd
    ensures FilterTs(inner, df) == FilterTs(inner, FilterTs(outer, df))
  {
    if df != [] {
      NarrowerRefilters(outer, inner, df[1..]);
      if InWindow(outer, df[0].index) {
        var r := FilterTs(outer, df);
        assert r == [df[0]] + FilterTs(outer, df[1..]);
        assert r[0] == df[0] && r[1..] == FilterTs(outer, df[1..]);
        assert FilterTs(inner, r) ==
          (if InWindow(inner, df[0].index) then [df[0]] else []) + FilterTs(inner, FilterTs(outer, df[1..]));
      } else {
        assert FilterTs(outer, df) == FilterTs(outer, df[1..]);
        assert FilterTs(inner, df) == FilterTs(inner, df[1..]);
      }
    }
  }
}

=== FILE: sums.dfy ===
/** Exact-arithmetic sums behind the residency tables: a pandas
    `groupby(key).sum()` is a keyed sum, and dividing every group's sum by
    the total and multiplying by 100 gives percentage shares. */
module Sums {

  function Sum(xs: seq<real>): real
  {
    if xs == [] then 0.0 else xs[0] + Sum(xs[1..])
  }

  /** The sum of all values in a list of (key, value) items. */
  function Total<K>(items: seq<(K, real)>): real
  {
    if items == [] then 0.0 else items[0].1 + Total(items[1..])
  }

  /** `groupby(key).sum()` for one key: the sum of the values filed under it. */
  function KeyedSum<K(==)>(items: seq<(K, real)>, k: K): real
  {
    if items == [] then 0.0
    else (if items[0].0 == k then items[0].1 else 0.0) + KeyedSum(items[1..], k)
  }

  /** The group sums of `keys`, summed. */
  function SumOverKeys<K(==)>(items: seq<(K, real)>, keys: seq<K>): real
  {
    if keys == [] then 0.0 else KeyedSum(items, keys[0]) + SumOverKeys(items, keys[1..])
  }

  predicate Distinct<K(==)>(keys: seq<K>)
  {
    forall i, j :: 0 <= i < j < |keys| ==> keys[i] != keys[j]
  }

  /** Every item is filed under one of `keys`. */
  predicate Covers<K(==)>(keys: seq<K>, items: seq<(K, real)>)
  {
    forall i :: 0 <= i < |items| ==> items[i].0 in keys
  }

  /** The value one item contributes to the group sums of `keys`. */
  function Hits<K(==)>(item: (K, real), keys: seq<K>): real
  {
    if keys == [] then 0.0 else (if keys[0] == item.0 then item.1 else 0.0) + Hits(item, keys[1..])
  }

  lemma {:induction false} HitsAbsent<K>(item: (K, real), keys: seq<K>)
    requires item.0 !in keys
    ensures Hits(item, keys) == 0.0
  {
    if keys != [] {
      HitsAbsent(item, keys[1..]);
    }
  }

  lemma {:induction false} HitsOnce<K>(item: (K, real), keys: seq<K>)
    requires Distinct(keys) && item.0 in keys
    ensures Hits(item, keys) == item.1
  {
    if keys[0] == item.0 {
      assert item.0 !in keys[1..];
      HitsAbsent(item, keys[1..]);
    } else {
      HitsOnce(item, keys[1..]);
    }
  }

  lemma {:induction false} SumOverKeysCons<K>(item: (K, real), rest: seq<(K, real)>, keys: seq<K>)
    ensures SumOverKeys([item] + rest, keys) == Hits(item, keys) + SumOverKeys(rest, keys)
  {
    if keys != [] {
      assert ([item] + rest)[1..] == rest;
      SumOverKeysCons(item, rest, keys[1..]);
    }
  }

  /** Grouping partitions the items: over duplicate-free keys covering every
      item, the group sums add up to the total. */
  lemma {:induction false} GroupSumsPartitionTotal<K>(items: seq<(K, real)>, keys: seq<K>)
    requires Distinct(keys) && Covers(keys, items)
    ensures SumOverKeys(items, keys) == Total(items)
  {
    if items == [] {
      EmptyGroupSums(keys);
    } else {
      assert items == [items[0]] + items[1..];
      SumOverKeysCons(items[0], items[1..], keys);
      HitsOnce(items[0], keys);
      assert Covers(keys, items[1..]) by {
        forall i | 0 <= i < |items[1..]| ensures items[1..][i].0 in keys {
          assert items[1..][i] == items[i + 1];
        }
      }
      GroupSumsPartitionTotal(items[1..], keys);
    }
  }

  lemma {:induction false} EmptyGroupSums<K>(keys: seq<K>)
    ensures SumOverKeys([], keys) == 0.0
  {
    if keys != [] {
      EmptyGroupSums(keys[1..]);
    }
  }

  /** Each key's share of `divisor`, in percent: `sum * 100 / divisor`. */
  function Shares<K(==)>(items: seq<(K, real)>, keys: seq<K>, divisor: real): (pct: seq<real>)
    requires divisor != 0.0
    ensures |pct| == |keys|
    ensures forall i :: 0 <= i < |keys| ==> pct[i] == KeyedSum(items, keys[i]) * 100.0 / divisor
  {
    if keys == [] then []
    else [KeyedSum(items, keys[0]) * 100.0 / divisor] + Shares(items, keys[1..], divisor)
  }

  lemma {:induction false} SharesSum<K>(items: seq<(K, real)>, keys: seq<K>, divisor: real)
    requires divisor != 0.0
    ensures Sum(Shares(items, keys, divisor)) == SumOverKeys(items, keys) * 100.0 / divisor
  {
    if keys != [] {
      var s := Shares(items, keys, divisor);
      var a := KeyedSum(items, keys[0]);
      var b := SumOverKeys(items, keys[1..]);
      assert s == [a * 100.0 / divisor] + Shares(items, keys[1..], divisor);
      assert s[1..] == Shares(items, keys[1..], divisor);
      SharesSum(items, keys[1..], divisor);
      ScaledSum(a, b, divisor);
    }
  }

  lemma ScaledSum(a: real, b: real, d: real)
    requires d != 0.0
    ensures a * 100.0 / d + b * 100.0 / d == (a + b) * 100.0 / d
  {
  }

  /** Dividing by the total itself, the shares of a covering, duplicate-free
      key list add up to exactly 100. */
  lemma SharesOfTotalSumTo100<K>(items: seq<(K, real)>, keys: seq<K>)
    requires Distinct(keys) && Covers(keys, items)
    requires Total(items) != 0.0
    ensures Sum(Shares(items, keys, Total(items))) == 100.0
  {
    SharesSum(items, keys, Total(items));
    GroupSumsPartitionTotal(items, keys);
    var t := Total(items);
    assert t * 100.0 / t == 100.0;
  }

  /** The keys of `items` in order of first appearance, each once. */
  function KeysOf<K(==)>(items: seq<(K, real)>): (keys: seq<K>)
    ensures Distinct(keys) && Covers(keys, items)
    ensures forall k :: k in keys ==> exists i :: 0 <= i < |items| && items[i].0 == k
  {
    KeysFrom(items, [])
  }

  function KeysFrom<K(==)>(items: seq<(K, real)>, seen: seq<K>): (keys: seq<K>)
    requires Distinct(seen)
    ensures Distinct(keys) && Covers(keys, items)
    ensures forall k :: k in seen ==> k in keys
    ensures forall k :: k in keys ==> k in seen || exists i :: 0 <= i < |items| && items[i].0 == k
    decreases |items|
  {
    if items == [] then seen
    else
      var seen' := if items[0].0 in seen then seen else seen + [items[0].0];
      var keys := KeysFrom(items[1..], seen');
      assert forall i :: 1 <= i < |items| ==> items[i] == items[1..][i - 1];
      keys
  }
}

=== FILE: utils.dfy ===
/** `convert_ts`: optional resampling of a nanosecond-timestamped frame onto
    a 100 us grid spanning the trace with forward fill, then rebasing to
    seconds since the trace start and clipping to the user's window. */
module Utils {
  import opened Wrappers
  import opened Settings

  /** Grid spacing in nanoseconds (100 us). */
  const STEP: int := 100 * 1000
  const NS_PER_SEC: real := 1000000000.0

  /** A row of a frame whose `ts` column holds nanoseconds. */
  datatype TsRow<V> = TsRow(ts: int, value: V)

  datatype ConvertError = UnorderedIndex

  predicate StrictlyAscendingTs<V>(rows: seq<TsRow<V>>)
  {
    forall i, j :: 0 <= i < j < |rows| ==> rows[i].ts < rows[j].ts
  }

  /** `np.arange(start, end, STEP)`: every start + k * STEP below `end`. */
  function Grid(start: int, end: int): (g: seq<int>)
    ensures |g| == if start < end then (end - start + STEP - 1) / STEP else 0
    ensures forall k :: 0 <= k < |g| ==> g[k] == start + k * STEP && g[k] < end
    ensures forall k: nat :: start + k * STEP < end ==> k < |g|
    decreases end - start
  {
    if start >= end then [] else [start] + Grid(start + STEP, end)
  }

  /** The forward-fill reference: the value of the last row whose timestamp
      is at or before `t`, or None when every row is later. */
  function LatestAtOrBefore<V>(rows: seq<TsRow<V>>, t: int): (r: Option<V>)
    ensures r.None? <==> forall i :: 0 <= i < |rows| ==> rows[i].ts > t
    ensures r.Some? ==>
      exists i :: 0 <= i < |rows| && rows[i].ts <= t && rows[i].value == r.value &&
        forall j :: i < j < |rows| ==> rows[j].ts > t
  {
    if rows == [] then None
    else if rows[|rows| - 1].ts <= t then Some(rows[|rows| - 1].value)
    else LatestAtOrBefore(rows[..|rows| - 1], t)
  }

  /** `reindex(grid, method='ffill')`: one row per grid point, stamped with
      the grid point and carrying the forward-filled value. */
  function Resample<V>(rows: seq<TsRow<V>>, grid: seq<int>): (r: seq<TsRow<Option<V>>>)
    ensures |r| == |grid|
    ensures forall k :: 0 <= k < |grid| ==> r[k] == TsRow(grid[k], LatestAtOrBefore(rows, grid[k]))
  {
    if grid == [] then []
    else [TsRow(grid[0], LatestAtOrBefore(rows, grid[0]))] + Resample(rows, grid[1..])
  }

  /** In an ascending frame, the forward-filled value at `t` comes from the
      row just before the first row later than `t`. */
  lemma {:induction false} LatestIsBeforeSplit<V>(rows: seq<TsRow<V>>, n: nat, t: int)
    requires StrictlyAscendingTs(rows) && n <= |rows|
    requires forall j :: 0 <= j < n ==> rows[j].ts <= t
    requires forall j :: n <= j < |rows| ==> rows[j].ts > t
    ensures LatestAtOrBefore(rows, t) == if n == 0 then None else Some(rows[n - 1].value)
    decreases |rows|
  {
    if rows != [] && n < |rows| {
      LatestIsBeforeSplit(rows[..|rows| - 1], n, t);
    }
  }

  /** In an ascending frame, every row from the first later one on is later. */
  lemma LaterStayLater<V>(rows: seq<TsRow<V>>, n: nat, t: int)
    requires StrictlyAscendingTs(rows) && n <= |rows|
    requires n < |rows| ==> rows[n].ts > t
    ensures forall j :: n <= j < |rows| ==> rows[j].ts > t
  {
    forall j | n < j < |rows| ensures rows[j].ts > t {
      assert rows[n].ts < rows[j].ts;
    }
  }

  /** The resampling pandas performs: one pass over the grid with a pointer
      into the rows that only moves forward. */
  method ReindexFfill<V>(rows: seq<TsRow<V>>, grid: seq<int>) returns (out: seq<Option<V>>)
    requires StrictlyAscendingTs(rows)
    requires forall k :: 0 < k < |grid| ==> grid[k - 1] <= grid[k]
    ensures |out| == |grid|
    ensures forall k :: 0 <= k < |grid| ==> out[k] == LatestAtOrBefore(rows, grid[k])
  {
    out := [];
    var n := 0;
    for k := 0 to |grid|
      invariant |out| == k && n <= |rows|
      invariant forall m :: 0 <= m < k ==> out[m] == LatestAtOrBefore(rows, grid[m])
      invariant k > 0 ==> forall j :: 0 <= j < n ==> rows[j].ts <= grid[k - 1]
      invariant k > 0 ==> forall j :: n <= j < |rows| ==> rows[j].ts > grid[k - 1]
      invariant k == 0 ==> n == 0
    {
      while n < |rows| && rows[n].ts <= grid[k]
        invariant n <= |rows|
        invariant forall j :: 0 <= j < n ==> rows[j].ts <= grid[k]
        invariant k > 0 ==> forall j :: n <= j < |rows| ==> rows[j].ts > grid[k - 1]
      {
        n := n + 1;
      }
      LaterStayLater(rows, n, grid[k]);
      LatestIsBeforeSplit(rows, n, grid[k]);
      var v := if n == 0 then None else Some(rows[n - 1].value);
      ghost var before := out;
      out := out + [v];
      assert forall m :: 0 <= m < k ==> out[m] == before[m];
      assert out[k] == LatestAtOrBefore(rows, grid[k]);
    }
  }

  /** Seconds since the trace start. */
  function ToSeconds(ts: int, start: int): (s: real)
    ensures s * NS_PER_SEC == (ts - start) as real
  {
    (ts - start) as real / NS_PER_SEC
  }

  /** A row at the trace start maps to 0, and rebasing keeps the order. */
  lemma ToSecondsOrder(a: int, b: int, start: int)
    ensures ToSeconds(start, start) == 0.0
    ensures a < b <==> ToSeconds(a, start) < ToSeconds(b, start)
  {
    var sa, sb := ToSeconds(a, start), ToSeconds(b, start);
    assert (sb - sa) * NS_PER_SEC == (b - a) as real;
  }

  /** The frame re-indexed by seconds since the trace start. */
  function Rebase<V>(rows: seq<TsRow<V>>, start: int): (r: seq<Row<V>>)
    ensures |r| == |rows|
    ensures forall i :: 0 <= i < |rows| ==> r[i] == Row(ToSeconds(rows[i].ts, start), rows[i].value)
  {
    if rows == [] then [] else [Row(ToSeconds(rows[0].ts, start), rows[0].value)] + Rebase(rows[1..], start)
  }

  function Present<V>(rows: seq<TsRow<V>>): (r: seq<TsRow<Option<V>>>)
    ensures |r| == |rows|
    ensures forall i :: 0 <= i < |rows| ==> r[i] == TsRow(rows[i].ts, Some(rows[i].value))
  {
    if rows == [] then [] else [TsRow(rows[0].ts, Some(rows[0].value))] + Present(rows[1..])
  }

  /** `convert_ts(df, reindex, 'ffill')` against the trace bounds
      [traceStart, traceEnd) and the window `w`. A value is None where
      resampling found no earlier row. */
  function ConvertTs<V>(w: Window, traceStart: int, traceEnd: int, rows: seq<TsRow<V>>, reindex: bool)
    : (r: Result<seq<Row<Option<V>>>, ConvertError>)
    ensures rows == [] ==> r == Success([])
    ensures r.Failure? <==> rows != [] && reindex && !StrictlyAscendingTs(rows)
    ensures r.Success? ==> forall i :: 0 <= i < |r.value| ==> InWindow(w, r.value[i].index)
  {
    if rows == [] then Success([])
    else if reindex && !StrictlyAscendingTs(rows) then Failure(UnorderedIndex)
    else
      var sampled := if reindex then Resample(rows, Grid(traceStart, traceEnd)) else Present(rows);
      Success(FilterTs(w, Rebase(sampled, traceStart)))
  }

  /** With reindex, the output holds exactly the grid points inside the
      window, each at its offset in seconds and carrying the forward-filled
      value. */
  lemma ConvertReindexed<V>(w: Window, traceStart: int, traceEnd: int, rows: seq<TsRow<V>>, g: seq<int>)
    requires rows != [] && StrictlyAscendingTs(rows)
    requires g == Grid(traceStart, traceEnd)
    ensures ConvertTs(w, traceStart, traceEnd, rows, true).Success?
    ensures forall x :: x in ConvertTs(w, traceStart, traceEnd, rows, true).value <==>
      exists k :: 0 <= k < |g| && InWindow(w, x.index) &&
        x == Row(ToSeconds(g[k], traceStart), LatestAtOrBefore(rows, g[k]))
  {
    var df := Rebase(Resample(rows, g), traceStart);
    assert ConvertTs(w, traceStart, traceEnd, rows, true) == Success(FilterTs(w, df));
    FilterMembership(w, df);
    forall x | x in df
      ensures exists k :: 0 <= k < |g| && x == Row(ToSeconds(g[k], traceStart), LatestAtOrBefore(rows, g[k]))
    {
      var k :| 0 <= k < |df| && df[k] == x;
    }
    forall k | 0 <= k < |g|
      ensures Row(ToSeconds(g[k], traceStart), LatestAtOrBefore(rows, g[k])) in df
    {
      assert df[k] == Row(ToSeconds(g[k], traceStart), LatestAtOrBefore(rows, g[k]));
    }
  }

  /** Without reindex, the output holds exactly the input rows whose rebased
      time is inside the window, each once and in input order: the j-th
      output row is the input row at the j-th position the window keeps. */
  lemma ConvertPlain<V>(w: Window, traceStart: int, traceEnd: int, rows: seq<TsRow<V>>)
    requires rows != []
    ensures forall x :: x in ConvertTs(w, traceStart, traceEnd, rows, false).value <==>
      exists i :: 0 <= i < |rows| && InWindow(w, x.index) &&
        x == Row(ToSeconds(rows[i].ts, traceStart), Some(rows[i].value))
    ensures
      var out := ConvertTs(w, traceStart, traceEnd, rows, false).value;
      var idx := KeptFrom(w, Rebase(Present(rows), traceStart), 0);
      && |out| == |idx|
      && forall j :: 0 <= j < |out| ==>
           idx[j] < |rows| && out[j] == Row(ToSeconds(rows[idx[j]].ts, traceStart), Some(rows[idx[j]].value))
  {
    var df := Rebase(Present(rows), traceStart);
    assert ConvertTs(w, traceStart, traceEnd, rows, false) == Success(FilterTs(w, df));
    FilterIsSelection(w, df);
    FilterMembership(w, df);
    forall x | x in df
      ensures exists i :: 0 <= i < |rows| && x == Row(ToSeconds(rows[i].ts, traceStart), Some(rows[i].value))
    {
      var i :| 0 <= i < |df| && df[i] == x;
    }
    forall i | 0 <= i < |rows|
      ensures Row(ToSeconds(rows[i].ts, traceStart), Some(rows[i].value)) in df
    {
      assert df[i] == Row(ToSeconds(rows[i].ts, traceStart), Some(rows[i].value));
    }
  }

  /** The grid climbs strictly. */
  lemma {:induction false} GridAscending(start: int, end: int)
    ensures forall i, j :: 0 <= i < j < |Grid(start, end)| ==> Grid(start, end)[i] < Grid(start, end)[j]
    decreases end - start
  {
    if start < end {
      var g, g' := Grid(start, end), Grid(start + STEP, end);
      GridAscending(start + STEP, end);
      assert g == [start] + g';
      assert forall k :: 0 <= k < |g'| ==> g'[k] >= start + STEP;
    }
  }

  lemma RebasedGridAscending<V>(rows: seq<TsRow<V>>, g: seq<int>, traceStart: int)
    requires forall i, j :: 0 <= i < j < |g| ==> g[i] < g[j]
    ensures StrictlyAscending(Rebase(Resample(rows, g), traceStart))
  {
    var df := Rebase(Resample(rows, g), traceStart);
    forall i, j | 0 <= i < j < |df| ensures df[i].index < df[j].index {
      RebasedIndex(rows, g, traceStart, i);
      RebasedIndex(rows, g, traceStart, j);
      ToSecondsOrder(g[i], g[j], traceStart);
    }
  }

  lemma RebasedIndex<V>(rows: seq<TsRow<V>>, g: seq<int>, traceStart: int, i: nat)
    requires i < |g|
    ensures |Rebase(Resample(rows, g), traceStart)| == |g|
    ensures Rebase(Resample(rows, g), traceStart)[i].index == ToSeconds(g[i], traceStart)
  {
    var sampled := Resample(rows, g);
    assert sampled[i].ts == g[i];
  }

  /** The resampled output is strictly ascending in time. */
  lemma ConvertReindexedAscending<V>(w: Window, traceStart: int, traceEnd: int, rows: seq<TsRow<V>>)
    requires rows != [] && StrictlyAscendingTs(rows)
    ensures StrictlyAscending(ConvertTs(w, traceStart, traceEnd, rows, true).value)
  {
    var g := Grid(traceStart, traceEnd);
    var df := Rebase(Resample(rows, g), traceStart);
    assert ConvertTs(w, traceStart, traceEnd, rows, true) == Success(FilterTs(w, df));
    GridAscending(traceStart, traceEnd);
    RebasedGridAscending(rows, g, traceStart);
    FilterKeepsAscending(w, df);
  }
}

=== FILE: wrappers.dfy ===
/** Failure-compatible wrappers, and the small helpers every module of the
    model shares. */
module Wrappers {

  /** A value that may be absent: a C NULL pointer, a Python None, a NaN cell. */
  datatype Option<+T> = None | Some(value: T)

  /** A value or the error the source raises instead of producing one. */
  datatype Result<+R, +E> = Success(value: R) | Failure(error: E)

  /** 2^64 - 1: `ULONG_MAX` on a 64-bit target, and the largest timestamp. */
  const U64_MAX: int := 0xFFFF_FFFF_FFFF_FFFF

  function Min(a: int, b: int): int
  {
    if a <= b then a else b
  }

  /** Regrouping an append, stated once so that recursive proofs need not
      rediscover it. */
  lemma AppendAssoc<T>(x: seq<T>, p: seq<T>, q: seq<T>)
    ensures x + (p + q) == (x + p) + q
  {
  }
}
